=== FILE: README.md ===
# CSV upload validation, modelled in Dafny

This project models the data-ingestion core of the indicator upload page: the
functions `parseCSV`, `validateRow` and `parseAndValidateFile` of
`src/utils/fileParser.ts`, and the `indianStates` catalog they check state
names against.

- **Tokenizer** (`Csv`). The file is trimmed and split on line feeds. Each
  line is scanned once, left to right, with an in-quotes toggle. A double
  quote flips the toggle and is dropped. A comma outside quotes ends a field.
  Every field is trimmed.
- **Row validator** (`Validation`). It finds the year, state and value
  columns: each is the first header whose ASCII lower-cased text contains
  "year", "state", or "value"/"rate". It then checks one data row:
  - the year is read with `parseInt` and must lie in 1947..2030;
  - the state must match a catalog entry, ignoring case;
  - the value is read with `parseFloat` and must be a number that is not
    negative;
  - a missing cell is a diagnostic.

  The result is a typed row plus at most one diagnostic per column.
- **File pipeline** (`Pipeline`). A grid without a header line and a data line
  gets one fatal diagnostic. Otherwise data row `i` is validated as file
  line `i + 2`, and the diagnostics are concatenated in row order.
- **Support modules.**
  - `Text` holds the JavaScript string operations the parser uses: `trim`
    with the ECMAScript whitespace set, ASCII `toLowerCase`, `includes`, and
    `split` with its inverse `Join`.
  - `Numbers` holds the integer and decimal prefix readers behind
    `parseInt(s, 10)` and `parseFloat(s)`, with the formatter `ShowInt` as
    their partner.
  - `Catalog` holds the state list.
  - `Wrappers` holds `Option`.

Partners used for round trips:
- the CSV writer `EncodeLine`/`EncodeFile` (the tokenizer reads back what it
  writes);
- `Join` for `Split`;
- `ShowInt` for the number readers;
- the reference definitions `InQuotesAt`/`BreaksBefore` (quote parity) for
  the cell count;
- `ErrorsOfRow` for the per-line slice of the combined diagnostic list.

The file pipeline is written once over any row check (`CheckGrid` takes a
`RowCheck` function). Its properties are proved for every check that numbers
its diagnostics with the line it was given (`NumbersLines`) and is valid
exactly when silent (`ValidWhenSilent`). `ValidateRow` is then plugged in
through `RowValidator`.

The catalog is a parameter of `ValidateRow` and `ParseAndValidateFile`.
`Catalog.IndianStates` is the list the application passes. The file text is a
parameter, since the page reads it asynchronously.

## Model

| member | source | states |
|---|---|---|
| Text.Trim | src/utils/fileParser.ts:5 | The result has no whitespace at either end. It is empty exactly when the input is all whitespace. Already trimmed text is returned unchanged. |
| Text.TrimSpan | src/utils/fileParser.ts:5 | `trim` keeps one contiguous piece of the text: only whitespace comes before it (the leading run) and only whitespace after it. |
| Text.TrimPadded | src/utils/fileParser.ts:5 | Whitespace, then text with no whitespace at either end, then whitespace: `trim` gives back exactly the middle text. With `TrimSpan`, this fixes `trim`'s result for every input. |
| Text.Scan | src/utils/fileParser.ts:36-38 | The left-to-right search that `includes` performs answers true exactly when the needle occurs at some index of the text. |
| Text.JoinSplit | src/utils/fileParser.ts:5 | Joining the parts of `split` with the separator gives back the original text. |
| Text.SplitJoin | src/utils/fileParser.ts:5 | Splitting joined parts gives back those parts, provided no part contains the separator. |
| Text.SplitCount | src/utils/fileParser.ts:5 | `split` gives one more part than the text has separators. |
| Text.TrimAppendWhitespace | src/utils/fileParser.ts:5 | Whitespace appended to a text does not change its trim. |
| Numbers.ParseInt | src/utils/fileParser.ts:42-43 | The result is NaN exactly when no digit follows the leading whitespace and optional sign. A negative result always comes from a minus sign. |
| Numbers.ParseIntSigned | src/utils/fileParser.ts:42 | Whitespace, an optional `+` or `-`, a run of digits (leading zeros allowed), then nothing or a non-digit: `parseInt` reads the run's value, negated after `-`. So `"+2023"` and `"02023"` both read as 2023. |
| Numbers.PlusPaddedYear | src/utils/fileParser.ts:42 | `parseInt(" +02023")` is 2023. |
| Numbers.ParseIntShowInt | src/utils/fileParser.ts:42 | `parseInt` reads back the decimal text of any integer, whatever non-digit text follows it (so "2023abc" reads as 2023). |
| Numbers.ParseFloat | src/utils/fileParser.ts:93-94 | The result is NaN exactly when neither `Infinity` nor a decimal prefix follows the whitespace and sign. A number is negative exactly when a minus sign follows the leading whitespace and the number is not zero. |
| Numbers.ParseFloatDecimal | src/utils/fileParser.ts:93 | The text `m.f` (digits `m`, a point, a non-empty digit run `f`), optionally after a minus sign, reads as the number m + f/10^|f|, negated when the sign is there. |
| Numbers.MinusFivePointFive | src/utils/fileParser.ts:93 | `parseFloat("-5.5")` is the number -5.5. |
| Numbers.ParseDecimalDigits | src/utils/fileParser.ts:93 | A bare run of digits reads as the integer it denotes. |
| Numbers.ParseFloatShowInt | src/utils/fileParser.ts:93 | `parseFloat` reads back the decimal text of any integer as that number. |
| Text.TrimJoinedLines | src/utils/fileParser.ts:5 | Trimming lines joined by a separator, when the first and last lines are not all whitespace, trims only the start of the first line and the end of the last; the lines between are untouched. |
| Csv.TokenizeLine | src/utils/fileParser.ts:6-23 | Every line gives at least one cell. Each cell is trimmed, holds no double quote, and is made only of the line's characters. `TokenizeCells` fixes the contents for every line. |
| Csv.TokenizeCells | src/utils/fileParser.ts:6-23 | For every line, the cells are found from the field breaks (commas preceded by an even number of double quotes): cell i is the text between break i-1 and break i with its double quotes removed, then trimmed. |
| Csv.ScanCells | src/utils/fileParser.ts:11-21 | The scan started at any index, in the quote state the prefix leaves, with any pending buffer, yields the buffer followed by the break-defined cells of the rest of the line. |
| Csv.UnclosedQuoteTakesRest | src/utils/fileParser.ts:12-13 | A quote that is never closed turns every later comma into text: the rest of the line joins the current cell. |
| Csv.UnterminatedQuoteLine | src/utils/fileParser.ts:11-21 | A bare field, a comma and a quote that is never closed give two cells: the field and the whole rest of the line, commas included. |
| Csv.UnterminatedQuote | src/utils/fileParser.ts:11-21 | `a,"b,c` gives the cells `a` and `b,c`. |
| Csv.DoubledQuoteLine | src/utils/fileParser.ts:12-13 | A doubled quote inside a quoted field is not an escaped quote: both quotes vanish, so `"a""b"` gives one cell `ab`. |
| Csv.DoubledQuote | src/utils/fileParser.ts:12-13 | `"a""b"` gives the single cell `ab`. |
| Csv.ParseLine | src/utils/fileParser.ts:7-22 | The loop with a mutable buffer, quote toggle and output list computes exactly the recursive tokenizer. |
| Csv.CellCount | src/utils/fileParser.ts:11-21 | A line has one cell more than it has commas preceded by an even number of double quotes. |
| Csv.QuotedCommaStays | src/utils/fileParser.ts:12-14 | `"a,b"` gives the single cell `a,b`. |
| Csv.TokenizeEncodeLine | src/utils/fileParser.ts:6-23 | The tokenizer reads back any line the writer writes from trimmed, quote-free cells. Each field is quoted or bare on its own and may be padded with whitespace on either side. A bare cell must also hold no comma. |
| Csv.MixedLine | src/utils/fileParser.ts:6-23 | `2023, "Kerala, India" ,96.2` gives the cells `2023`, `Kerala, India` and `96.2`. |
| Csv.ParseCSV | src/utils/fileParser.ts:4-24 | There is at least one row, and each row has at least one cell. No cell holds a double quote or a line feed, and none starts or ends with whitespace, so a CRLF carriage return never survives. |
| Csv.RowCount | src/utils/fileParser.ts:5 | The grid has one row more than the trimmed text has line feeds. So it has fewer than two rows exactly when the trimmed text holds no line feed. |
| Csv.TrailingWhitespaceIgnored | src/utils/fileParser.ts:5 | A trailing line feed, or any trailing whitespace, adds no row and changes no cell. |
| Csv.ParseEncodeFile | src/utils/fileParser.ts:4-24 | `parseCSV` reads back any file the writer writes from a grid of trimmed cells without double quotes or line feeds. Each field may be quoted or bare and padded with whitespace other than a line feed (a carriage return before each line feed included). With two or more rows, the first and last rows must not be a single bare empty cell: such a line is all whitespace, and trimming the whole text would remove it. |
| Csv.ParseManyLines | src/utils/fileParser.ts:4-24 | Lines without line feeds whose first and last are not all whitespace, joined by line feeds, parse to exactly the rows each line tokenizes to. |
| Csv.TokenizePadded | src/utils/fileParser.ts:5-21 | Whitespace before or after a line does not change its cells, so trimming the whole text leaves the first and last rows intact. |
| Validation.FindRole | src/utils/fileParser.ts:36-38 | The column of a role is the first header whose lower-cased text contains the role's keyword. It is absent exactly when no header does. |
| Validation.CheckYear | src/utils/fileParser.ts:40-67 | An accepted year lies in 1947..2030. When a year column exists, exactly one of "year accepted" and "diagnostic raised" holds. Any diagnostic is a year message numbered with the row. |
| Validation.CheckState | src/utils/fileParser.ts:69-89 | An accepted state is in the catalog and raises nothing. Any diagnostic is a state message numbered with the row. |
| Validation.CheckValue | src/utils/fileParser.ts:91-118 | An accepted value is not negative. When a value column exists, exactly one of "value accepted" and "diagnostic raised" holds. Any diagnostic is a value message numbered with the row. |
| Validation.ValidateRow | src/utils/fileParser.ts:26-130 | The row is valid exactly when it raised no diagnostic, and its message list mirrors the diagnostics. Every diagnostic carries the row index. There is at most one per role, in year, state, value order, so at most three. Every accepted field satisfies its rule. |
| Validation.RoleErrorsOfRow | src/utils/fileParser.ts:31-118 | A row's diagnostics for one role are exactly the diagnostic that role's check raised, if any. |
| Validation.AbsentRoleSilent | src/utils/fileParser.ts:36-118 | When no header serves a role, the row gets no diagnostic for that role. Its field stays null, or empty for the state, whatever the cells hold. |
| Validation.MissingCellReported | src/utils/fileParser.ts:60-117 | When a role's column exists but the cell is empty or past the end of the row, there is exactly one diagnostic for that role. It carries the literal column "Year", "State" or "Value", the role's "missing" message and an empty value. The field stays unset. |
| Validation.YearFromText | src/utils/fileParser.ts:41-59 | A year cell holding the decimal text of `n`, possibly followed by non-digit text, behaves as follows. When 1947 <= n <= 2030 the year is `n` and there is no year diagnostic. Otherwise the year is null and there is one range diagnostic with the header and the cell. |
| Validation.YearNotANumber | src/utils/fileParser.ts:42-49 | A present year cell with no digits after its sign gets exactly one "Invalid year format" diagnostic, and the year stays null. |
| Validation.StateRule | src/utils/fileParser.ts:70-81 | A present state is accepted exactly when its trimmed text matches a catalog entry, ignoring case. The stored state is that text, not the catalog's spelling. Otherwise the state stays empty and there is one diagnostic carrying the trimmed text. |
| Validation.ValueRule | src/utils/fileParser.ts:92-110 | A present value cell has three outcomes. With no numeric prefix it is non-numeric. When it reads as negative it is "Value cannot be negative". Otherwise the number is stored and no value diagnostic is raised. |
| Validation.ValueFromInt | src/utils/fileParser.ts:93-110 | A value cell holding the decimal text of an integer `n` is stored as `n` when `n >= 0`. Otherwise it is rejected as negative. |
| Validation.ValueFromDecimal | src/utils/fileParser.ts:93-110 | A value cell holding decimal text such as `5.5` or `-5.5` is stored as its value when it has no minus sign or is zero. A non-zero value with a minus sign gets exactly one "Value cannot be negative" diagnostic carrying the header and the cell, and the value stays null. |
| Validation.CatalogStates | src/data/sampleData.ts:208-215 | Against the application's state list, a "State" column accepts "kerala" (kept as written, although the list spells it "Kerala") and rejects "Atlantis" with "Invalid state/territory name". |
| Validation.ValidRowHasYear | src/utils/fileParser.ts:40-67 | When a year column exists, a valid row has a year, and it lies in 1947..2030, whatever the other columns hold. |
| Validation.ValidRowHasValue | src/utils/fileParser.ts:91-118 | When a value column exists, a valid row has a value, and it is not negative, whatever the other columns hold. |
| Validation.ValidRowHasFields | src/pages/UploadData.tsx:54-61 | When year and value columns exist, a valid row has both a year and a value. That is what makes the page's non-null reads sound. |
| Pipeline.ConcatErrors | src/utils/fileParser.ts:150-154 | Appending per-row diagnostics gives a list ordered by row number and numbered within the range. The diagnostics numbered `first + i` are exactly row `i`'s. |
| Pipeline.Collect | src/utils/fileParser.ts:150-154 | There is one parsed row per result, in order. The combined diagnostics are ordered by row, and the diagnostics for each line number are exactly that row's. |
| Pipeline.CheckGrid | src/utils/fileParser.ts:137-156 | A grid with fewer than two lines gets the fatal answer. Otherwise the headers are the first line and there is one parsed row per data line. |
| Pipeline.CheckGridLineErrors | src/utils/fileParser.ts:150-154 | For any row check that numbers its diagnostics, the diagnostics numbered `n` are the check's for grid line `n - 1`. |
| Pipeline.CheckGridValid | src/utils/fileParser.ts:150-154 | For any such check that is valid exactly when silent, a row is valid exactly when no diagnostic carries its line number. |
| Pipeline.RowValidator | src/utils/fileParser.ts:151 | `validateRow` numbers every diagnostic with the line it is given, and is valid exactly when it raises nothing. |
| Pipeline.GridRows | src/utils/fileParser.ts:145-152 | Parsed row `k` of a grid is what `validateRow` made of grid line `k + 1` as line `k + 2`, against the first line as headers. |
| Pipeline.GridLineErrors | src/utils/fileParser.ts:150-154 | The grid's diagnostics numbered `n` are exactly what `validateRow` raised for grid line `n - 1`. |
| Pipeline.ParseAndValidateFile | src/utils/fileParser.ts:132-143 | The fatal answer comes back exactly when the trimmed text has no line feed, which includes the empty file. It has no rows, no headers, and one diagnostic at row 0 with an empty column and value. |
| Pipeline.FileShape | src/utils/fileParser.ts:145-156 | The headers are the first tokenized line. There is one parsed row per later line, as many as the trimmed text has line feeds. Row `k` is `validateRow` of tokenized line `k + 1` as file line `k + 2`. |
| Pipeline.FileErrors | src/utils/fileParser.ts:150-154 | Every diagnostic carries a data line number and the list is in line order. The diagnostics numbered `n` are exactly `validateRow`'s for line `n`. |
| Pipeline.ValidIffNoDiagnostic | src/utils/fileParser.ts:120-154 | A parsed row is valid exactly when no diagnostic in the file's list carries its line number. |
| Pipeline.NoErrorsIffAllValid | src/pages/UploadData.tsx:44 | The diagnostic list is empty exactly when the file has data rows and every one is valid, which is what the page's "validated" status relies on. |
| Pipeline.TrailingNewlineIgnored | src/utils/fileParser.ts:5 | A trailing line feed, or any trailing whitespace, leaves the whole result unchanged. |

## Left out

- The React pages, routing, login and the data context are not part of this model. They render, hold form state and stamp wall-clock times.
- Reading the uploaded file (`file.text()`) is asynchronous I/O, so the text is a parameter.
- Numbers.ParseFloat: real arithmetic replaces IEEE doubles. Rounding, overflow of large exponents to Infinity, underflow and the sign of `-0` are not modelled. A decimal text reads as its exact value; the validator relies only on "NaN or a number" and the sign.
- Numbers.ParseInt: unbounded integers replace the double that `parseInt` returns. The precision lost above 2^53 is not modelled; it cannot change a range check against 1947..2030.
- Text.ToLower: only ASCII letters are lower-cased, not full Unicode case mapping.
- Diagnostic messages are an enumeration (`Message`), and `MessageText` gives the exact text each one carries. A parsed row's `errors` list holds these constants rather than strings. `MessageText` is data only: no property refers to it.
- The catalog's contents are copied as given, not checked against any official list. It has 28 states plus "Delhi" and "India", and none of the other union territories.
- Trailing empty lines: a trailing line feed might look as if it yields an empty last row. The code trims the whole text before splitting, so it never does. The model follows the code (`TrailingNewlineIgnored`).
- The JavaScript truthiness of `row[i]` is modelled as "exists and is not the empty string" (`HasCell`), as in JavaScript, where a non-empty string is truthy.

=== FILE: catalog.dfy ===
/** The closed catalog of state and territory names the upload validator
    accepts (`indianStates` in src/data/sampleData.ts): the 28 states, Delhi,
    and "India" for national-level rows. */
module Catalog {

  const IndianStates: seq<string> := [
    "Andhra Pradesh", "Arunachal Pradesh", "Assam", "Bihar", "Chhattisgarh",
    "Goa", "Gujarat", "Haryana", "Himachal Pradesh", "Jharkhand",
    "Karnataka", "Kerala", "Madhya Pradesh", "Maharashtra", "Manipur",
    "Meghalaya", "Mizoram", "Nagaland", "Odisha", "Punjab",
    "Rajasthan", "Sikkim", "Tamil Nadu", "Telangana", "Tripura",
    "Uttar Pradesh", "Uttarakhand", "West Bengal", "Delhi", "India"
  ]
}

=== FILE: csv.dfy ===
/** The quote-aware line tokenizer `parseCSV` (src/utils/fileParser.ts).
    The whole text is trimmed and split on line feeds; each line is scanned
    once, left to right, with an in-quotes toggle. A double quote flips the
    toggle and is dropped (there is no escaping), a comma outside quotes
    ends a field, and every field is trimmed. The CSV writer `EncodeLine` /
    `EncodeFile` is the partner the round-trip lemmas read back. */
module Csv {
  import opened Text

  /** The rest of the scan of one line, from state (`inQuotes`, `current`):
      the cells still to be pushed, in order. */
  function ScanLine(line: string, inQuotes: bool, current: string): (cells: seq<string>)
    ensures |cells| >= 1
    ensures forall c :: c in cells ==> IsTrimmed(c)
    ensures '"' !in current ==> forall c :: c in cells ==> '"' !in c
    ensures forall c, x :: c in cells && x in c ==> x in line || x in current
    decreases |line|
  {
    if |line| == 0 then [Trim(current)]
    else if line[0] == '"' then ScanLine(line[1..], !inQuotes, current)
    else if line[0] == ',' && !inQuotes then [Trim(current)] + ScanLine(line[1..], inQuotes, "")
    else ScanLine(line[1..], inQuotes, current + [line[0]])
  }

  /** The cells of one line: at least one, each trimmed, none holding a
      double quote, and made only of the line's characters. */
  function TokenizeLine(line: string): (cells: seq<string>)
    ensures |cells| >= 1
    ensures forall c :: c in cells ==> IsTrimmed(c) && '"' !in c
    ensures forall c, x :: c in cells && x in c ==> x in line
  {
    ScanLine(line, false, "")
  }

  /** The per-line loop of `parseCSV`, with a mutable buffer, a quote
      toggle and an output list; it computes `TokenizeLine`. */
  method ParseLine(line: string) returns (values: seq<string>)
    ensures values == TokenizeLine(line)
  {
    values := [];
    var current := "";
    var inQuotes := false;
    var i := 0;
    while i < |line|
      invariant 0 <= i <= |line|
      invariant values + ScanLine(line[i..], inQuotes, current) == TokenizeLine(line)
    {
      var c := line[i];
      assert line[i..][1..] == line[i + 1..];
      if c == '"' {
        inQuotes := !inQuotes;
      } else if c == ',' && !inQuotes {
        values := values + [Trim(current)];
        current := "";
      } else {
        current := current + [c];
      }
      i := i + 1;
    }
    values := values + [Trim(current)];
  }

  /** `parseCSV`: the trimmed text split on line feeds, each line tokenized.
      There is always at least one row and one cell per row; no cell holds a
      double quote or a line feed, and none starts or ends with whitespace
      (so the carriage return of a CRLF line ending never survives). */
  function ParseCSV(content: string): (grid: seq<seq<string>>)
    ensures |grid| >= 1
    ensures forall row :: row in grid ==> |row| >= 1
    ensures forall row, c :: row in grid && c in row ==> IsTrimmed(c) && '"' !in c && '\n' !in c
  {
    var lines := Split(Trim(content), '\n');
    seq(|lines|, i requires 0 <= i < |lines| => TokenizeLine(lines[i]))
  }

  /** Rows of `parseCSV`: one more than the line feeds left after trimming,
      so fewer than two exactly when the trimmed text has no line feed. */
  lemma {:induction false} RowCount(content: string)
    ensures |ParseCSV(content)| == 1 + multiset(Trim(content))['\n']
    ensures |ParseCSV(content)| < 2 <==> '\n' !in Trim(content)
  {
    SplitCount(Trim(content), '\n');
  }

  /** A trailing line feed (or any trailing whitespace) adds no row. */
  lemma {:induction false} TrailingWhitespaceIgnored(content: string, c: char)
    requires IsWhitespace(c)
    ensures ParseCSV(content + [c]) == ParseCSV(content)
  {
    TrimAppendWhitespace(content, c);
  }

  // ----- the cell count, from quote parity -----

  /** The position `k` of `line` lies inside quotes: an odd number of double
      quotes precede it. */
  predicate InQuotesAt(line: string, k: nat)
    requires k <= |line|
  {
    multiset(line[..k])['"'] % 2 == 1
  }

  /** Position `k` holds a comma outside quotes, which ends a field. */
  predicate IsFieldBreak(line: string, k: nat)
    requires k < |line|
  {
    line[k] == ',' && !InQuotesAt(line, k)
  }

  /** The number of field breaks before position `n`. */
  function BreaksBefore(line: string, n: nat): nat
    requires n <= |line|
  {
    if n == 0 then 0
    else BreaksBefore(line, n - 1) + (if IsFieldBreak(line, n - 1) then 1 else 0)
  }

  /** Passing position `k` flips the quote state exactly at a double quote. */
  lemma {:induction false} QuoteParityStep(line: string, k: nat)
    requires k < |line|
    ensures InQuotesAt(line, k + 1) == (if line[k] == '"' then !InQuotesAt(line, k) else InQuotesAt(line, k))
  {
    assert line[..k + 1] == line[..k] + [line[k]];
    assert multiset(line[..k + 1]) == multiset(line[..k]) + multiset{line[k]};
  }

  /** One step of the scan, counted: a field break emits one cell. */
  lemma {:induction false} ScanStep(line: string, k: nat, inQuotes: bool, current: string)
    requires k < |line|
    ensures |ScanLine(line[k..], inQuotes, current)| ==
      if line[k] == '"' then |ScanLine(line[k + 1..], !inQuotes, current)|
      else if line[k] == ',' && !inQuotes then 1 + |ScanLine(line[k + 1..], inQuotes, "")|
      else |ScanLine(line[k + 1..], inQuotes, current + [line[k]])|
  {
    assert line[k..][0] == line[k];
    assert line[k..][1..] == line[k + 1..];
  }

  lemma {:induction false} ScanCountFrom(line: string, k: nat, current: string)
    requires k <= |line|
    ensures |ScanLine(line[k..], InQuotesAt(line, k), current)|
            == 1 + BreaksBefore(line, |line|) - BreaksBefore(line, k)
    decreases |line| - k
  {
    if k < |line| {
      var q := InQuotesAt(line, k);
      QuoteParityStep(line, k);
      ScanStep(line, k, q, current);
      BreaksMonotone(line, k + 1, |line|);
      var next := if line[k] == '"' then current
        else if line[k] == ',' && !q then ""
        else current + [line[k]];
      ScanCountFrom(line, k + 1, next);
    }
  }

  lemma {:induction false} BreaksMonotone(line: string, m: nat, n: nat)
    requires m <= n <= |line|
    ensures BreaksBefore(line, m) <= BreaksBefore(line, n)
    decreases n - m
  {
    if m < n {
      BreaksMonotone(line, m, n - 1);
    }
  }

  /** A line has one cell more than it has commas outside quotes. */
  lemma {:induction false} CellCount(line: string)
    ensures |TokenizeLine(line)| == 1 + BreaksBefore(line, |line|)
  {
    assert line[..0] == [];
    assert !InQuotesAt(line, 0);
    ScanCountFrom(line, 0, "");
    assert line[0..] == line;
  }

  // ----- the cell contents, from the field breaks -----

  /** The first field break at or after position `k`, or the end of the
      line when there is none. */
  function NextBreak(line: string, k: nat): (e: nat)
    requires k <= |line|
    ensures k <= e <= |line|
    ensures e < |line| ==> IsFieldBreak(line, e)
    ensures forall j :: k <= j < e ==> !IsFieldBreak(line, j)
    decreases |line| - k
  {
    if k == |line| || IsFieldBreak(line, k) then k else NextBreak(line, k + 1)
  }

  /** `s` with every double quote left out. */
  function Unquote(s: string): (t: string)
    ensures '"' !in t
    ensures forall x :: x in t ==> x in s
    decreases |s|
  {
    if |s| == 0 then ""
    else (if s[0] == '"' then "" else [s[0]]) + Unquote(s[1..])
  }

  /** The cells of `line` from position `k` on, read off the field breaks:
      each is the text up to the next break, without its double quotes,
      trimmed. A quote that is never closed leaves no break after it, so its
      field runs to the end of the line; two quotes in a row flip the quote
      state twice and leave nothing behind. */
  function Cells(line: string, k: nat): (cells: seq<string>)
    requires k <= |line|
    ensures |cells| >= 1
    decreases |line| - k
  {
    var e := NextBreak(line, k);
    [Trim(Unquote(line[k..e]))] + (if e == |line| then [] else Cells(line, e + 1))
  }

  /** One step of the scan at position `k`. */
  lemma {:induction false} ScanAt(line: string, k: nat, inQuotes: bool, current: string)
    requires k < |line|
    ensures ScanLine(line[k..], inQuotes, current) ==
      if line[k] == '"' then ScanLine(line[k + 1..], !inQuotes, current)
      else if line[k] == ',' && !inQuotes then [Trim(current)] + ScanLine(line[k + 1..], inQuotes, "")
      else ScanLine(line[k + 1..], inQuotes, current + [line[k]])
  {
    assert line[k..][0] == line[k];
    assert line[k..][1..] == line[k + 1..];
  }

  /** Past a character that is no field break, the text up to the next
      break loses that character, unless it is a double quote. */
  lemma {:induction false} UnquoteStep(line: string, k: nat)
    requires k < |line| && !IsFieldBreak(line, k)
    ensures NextBreak(line, k) == NextBreak(line, k + 1)
    ensures var e := NextBreak(line, k);
      Unquote(line[k..e]) == (if line[k] == '"' then "" else [line[k]]) + Unquote(line[k + 1..e])
  {
    var e := NextBreak(line, k);
    assert line[k..e][1..] == line[k + 1..e];
  }

  /** The cells read off the breaks from position `k`, with `current`
      buffered in front of the first one. */
  function CellsAfter(line: string, k: nat, current: string): (cells: seq<string>)
    requires k <= |line|
    ensures |cells| >= 1
  {
    var e := NextBreak(line, k);
    [Trim(current + Unquote(line[k..e]))] + (if e == |line| then [] else Cells(line, e + 1))
  }

  /** The scan from position `k`, with `current` already buffered, finishes
      the field under way with the text up to the next break and then reads
      the remaining cells off the breaks. */
  lemma {:induction false} ScanCells(line: string, k: nat, current: string)
    requires k <= |line|
    ensures ScanLine(line[k..], InQuotesAt(line, k), current) == CellsAfter(line, k, current)
    decreases |line| - k
  {
    if k == |line| {
      assert line[k..] == [] && line[k..k] == [];
      assert current + "" == current;
    } else if IsFieldBreak(line, k) {
      ScanCells(line, k + 1, "");
      ScanCellsBreak(line, k, current);
    } else {
      var next := if line[k] == '"' then current else current + [line[k]];
      ScanCells(line, k + 1, next);
      ScanCellsField(line, k, current);
    }
  }

  lemma {:induction false} ScanCellsBreak(line: string, k: nat, current: string)
    requires k < |line| && IsFieldBreak(line, k)
    requires ScanLine(line[k + 1..], InQuotesAt(line, k + 1), "") == CellsAfter(line, k + 1, "")
    ensures ScanLine(line[k..], InQuotesAt(line, k), current) == CellsAfter(line, k, current)
  {
    ScanAt(line, k, InQuotesAt(line, k), current);
    QuoteParityStep(line, k);
    BreakIsNext(line, k);
    CellsAtBreak(line, k, current);
    CellsAfterNothing(line, k + 1);
  }

  lemma {:induction false} BreakIsNext(line: string, k: nat)
    requires k < |line| && IsFieldBreak(line, k)
    ensures NextBreak(line, k) == k
  {
  }

  /** At a break, the field under way holds just what is buffered. */
  lemma {:induction false} CellsAtBreak(line: string, k: nat, current: string)
    requires k < |line| && NextBreak(line, k) == k
    ensures CellsAfter(line, k, current) == [Trim(current)] + Cells(line, k + 1)
  {
    assert Unquote(line[k..k]) == "";
    assert current + "" == current;
  }

  /** With nothing buffered, the cells after `k` are the cells from `k`. */
  lemma {:induction false} CellsAfterNothing(line: string, k: nat)
    requires k <= |line|
    ensures CellsAfter(line, k, "") == Cells(line, k)
  {
    var e := NextBreak(line, k);
    assert "" + Unquote(line[k..e]) == Unquote(line[k..e]);
  }

  lemma {:induction false} ScanCellsField(line: string, k: nat, current: string)
    requires k < |line| && !IsFieldBreak(line, k)
    requires var next := if line[k] == '"' then current else current + [line[k]];
      ScanLine(line[k + 1..], InQuotesAt(line, k + 1), next) == CellsAfter(line, k + 1, next)
    ensures ScanLine(line[k..], InQuotesAt(line, k), current) == CellsAfter(line, k, current)
  {
    ScanAt(line, k, InQuotesAt(line, k), current);
    QuoteParityStep(line, k);
    CellsInField(line, k, current);
  }

  /** Inside a field, a character moves from the line into the buffer,
      unless it is a double quote, which is dropped. */
  lemma {:induction false} CellsInField(line: string, k: nat, current: string)
    requires k < |line| && !IsFieldBreak(line, k)
    ensures var next := if line[k] == '"' then current else current + [line[k]];
      CellsAfter(line, k, current) == CellsAfter(line, k + 1, next)
  {
    BufferStep(line, k, current);
    var next := if line[k] == '"' then current else current + [line[k]];
    SameField(line, k, current, k + 1, next);
  }

  /** Two scan states with the same next break and the same text for the
      field under way have the same cells ahead. */
  lemma {:induction false} SameField(line: string, k: nat, current: string, k': nat, current': string)
    requires k <= |line| && k' <= |line|
    requires NextBreak(line, k) == NextBreak(line, k')
    requires current + Unquote(line[k..NextBreak(line, k)]) == current' + Unquote(line[k'..NextBreak(line, k')])
    ensures CellsAfter(line, k, current) == CellsAfter(line, k', current')
  {
    var e := NextBreak(line, k);
    CellsAfterAt(line, k, e, current);
    CellsAfterAt(line, k', e, current');
  }

  /** The cells after `k`, spelled out for the break `e` that follows it. */
  lemma {:induction false} CellsAfterAt(line: string, k: nat, e: nat, current: string)
    requires k <= e <= |line| && NextBreak(line, k) == e
    ensures CellsAfter(line, k, current)
            == [Trim(current + Unquote(line[k..e]))] + (if e == |line| then [] else Cells(line, e + 1))
  {
  }

  lemma {:induction false} BufferStep(line: string, k: nat, current: string)
    requires k < |line| && !IsFieldBreak(line, k)
    ensures var e := NextBreak(line, k);
      var next := if line[k] == '"' then current else current + [line[k]];
      && e == NextBreak(line, k + 1)
      && next + Unquote(line[k + 1..e]) == current + Unquote(line[k..e])
  {
    UnquoteStep(line, k);
  }

  /** `TokenizeLine` reads exactly the cells marked off by the field breaks:
      the text between consecutive commas outside quotes, with its double
      quotes removed and then trimmed. */
  lemma {:induction false} TokenizeCells(line: string)
    ensures TokenizeLine(line) == Cells(line, 0)
  {
    assert line[..0] == [];
    assert !InQuotesAt(line, 0);
    assert line[0..] == line;
    ScanCells(line, 0, "");
    CellsAfterNothing(line, 0);
  }

  /** An opening quote that is never closed takes the rest of the line,
      commas included, into the field under way. */
  lemma {:induction false} UnclosedQuoteTakesRest(tail: string, current: string)
    requires '"' !in tail
    ensures ScanLine("\"" + tail, false, current) == [Trim(current + tail)]
  {
    ScanQuote(tail, false, current);
    ScanPlain(tail, true, current, "");
    assert tail + "" == tail;
  }

  /** Two double quotes in a row flip the quote state twice and leave
      nothing in the buffer: a doubled quote is no escape. */
  lemma {:induction false} DoubledQuoteVanishes(tail: string, inQuotes: bool, current: string)
    ensures ScanLine("\"\"" + tail, inQuotes, current) == ScanLine(tail, inQuotes, current)
  {
    assert "\"\"" + tail == "\"" + ("\"" + tail);
    ScanQuote("\"" + tail, inQuotes, current);
    ScanQuote(tail, !inQuotes, current);
  }

  /** A field `a` followed by a comma and a quote that is never closed:
      the rest of the line, commas included, is the second and last cell. */
  lemma {:induction false} UnterminatedQuoteLine(a: string, b: string)
    requires '"' !in a && ',' !in a && '"' !in b
    ensures TokenizeLine(a + ",\"" + b) == [Trim(a), Trim(b)]
  {
    var tail := "\"" + b;
    assert a + ",\"" + b == a + ([','] + tail);
    assert TokenizeLine(a + ([','] + tail)) == ScanLine([','] + tail, false, a) by {
      ScanPlain(a, false, "", [','] + tail);
      assert "" + a == a;
    }
    assert ScanLine([','] + tail, false, a) == [Trim(a)] + ScanLine(tail, false, "") by {
      ScanCons(',', tail, false, a);
    }
    assert ScanLine(tail, false, "") == [Trim(b)] by {
      UnclosedQuoteTakesRest(b, "");
      assert "" + b == b;
    }
  }

  /** A quoted field with a doubled quote inside reads as its text with all
      four quotes dropped, commas included: `"a""b"` is the one cell `ab`. */
  lemma {:induction false} DoubledQuoteLine(a: string, b: string)
    requires '"' !in a && '"' !in b
    ensures TokenizeLine("\"" + a + "\"\"" + b + "\"") == [Trim(a + b)]
  {
    var line := "\"" + a + "\"\"" + b + "\"";
    assert line == "\"" + (a + ("\"\"" + (b + "\"")));
    ScanQuote(a + ("\"\"" + (b + "\"")), false, "");
    ScanPlain(a, true, "", "\"\"" + (b + "\""));
    DoubledQuoteVanishes(b + "\"", true, "" + a);
    ScanPlain(b, true, "" + a, "\"");
    ScanQuote("", true, "" + a + b);
    assert "\"" + "" == "\"";
    assert "" + a + b == a + b;
  }

  /** `a,"b,c` reads as the two cells `a` and `b,c`. */
  lemma {:induction false} UnterminatedQuote()
    ensures TokenizeLine("a,\"b,c") == ["a", "b,c"]
  {
    UnterminatedQuoteLine("a", "b,c");
    TrimmedText("a");
    TrimmedText("b,c");
    assert "a" + ",\"" + "b,c" == "a,\"b,c";
  }

  /** `"a""b"` reads as the one cell `ab`. */
  lemma {:induction false} DoubledQuote()
    ensures TokenizeLine("\"a\"\"b\"") == ["ab"]
  {
    DoubledQuoteLine("a", "b");
    TrimmedText("ab");
    assert "\"" + "a" + "\"\"" + "b" + "\"" == "\"a\"\"b\"";
    assert "a" + "b" == "ab";
  }

  /** Text that begins and ends with a lower-case letter has nothing to trim.
      Used by the literal examples: a letter range is cheaper for the solver
      than the whitespace set. */
  lemma {:induction false} TrimmedText(s: string)
    requires |s| > 0 && 'a' <= s[0] <= 'z' && 'a' <= s[|s| - 1] <= 'z'
    ensures Trim(s) == s
  {
    assert IsTrimmed(s);
  }

  /** One step of the scan over a character `c` in front of `rest`. */
  lemma {:induction false} ScanCons(c: char, rest: string, inQuotes: bool, current: string)
    ensures ScanLine([c] + rest, inQuotes, current) ==
      if c == '"' then ScanLine(rest, !inQuotes, current)
      else if c == ',' && !inQuotes then [Trim(current)] + ScanLine(rest, inQuotes, "")
      else ScanLine(rest, inQuotes, current + [c])
  {
    assert ([c] + rest)[0] == c;
    assert ([c] + rest)[1..] == rest;
  }

  // ----- the writer, and reading back what it writes -----

  /** How one field is laid out: whitespace before it, whether the cell
      sits between double quotes, and whitespace after it. */
  datatype Layout = Layout(before: string, quoted: bool, after: string)

  /** One field as a writer would put it. */
  function EncodeField(cell: string, f: Layout): string
  {
    f.before + (if f.quoted then "\"" + cell + "\"" else cell) + f.after
  }

  /** A cell and layout that read back as the cell: the padding is
      whitespace, the cell is trimmed and holds no double quote, and it
      holds no comma unless it is quoted. */
  predicate Encodable(cell: string, f: Layout)
  {
    && AllWhitespace(f.before) && AllWhitespace(f.after)
    && IsTrimmed(cell) && '"' !in cell && (f.quoted || ',' !in cell)
  }

  function EncodeFields(cells: seq<string>, layout: seq<Layout>): (fields: seq<string>)
    requires |layout| == |cells|
    ensures |fields| == |cells|
  {
    seq(|cells|, i requires 0 <= i < |cells| => EncodeField(cells[i], layout[i]))
  }

  /** One line of comma-separated fields, each with its own layout. */
  function EncodeLine(cells: seq<string>, layout: seq<Layout>): string
    requires |cells| >= 1 && |layout| == |cells|
  {
    Join(EncodeFields(cells, layout), ',')
  }

  /** Whitespace neither toggles quoting nor ends a field. */
  lemma {:induction false} WhitespacePlain(w: string)
    requires AllWhitespace(w)
    ensures '"' !in w && ',' !in w
  {
    assert forall i :: 0 <= i < |w| ==> w[i] != '"' && w[i] != ',';
  }

  /** Characters that can neither toggle quoting nor (outside quotes) end a
      field just move into the buffer. */
  lemma {:induction false} ScanPlain(chars: string, inQuotes: bool, current: string, tail: string)
    requires '"' !in chars && (inQuotes || ',' !in chars)
    ensures ScanLine(chars + tail, inQuotes, current) == ScanLine(tail, inQuotes, current + chars)
    decreases |chars|
  {
    if |chars| == 0 {
      assert chars + tail == tail;
      assert current + chars == current;
    } else {
      assert (chars + tail)[0] == chars[0];
      assert (chars + tail)[1..] == chars[1..] + tail;
      ScanPlain(chars[1..], inQuotes, current + [chars[0]], tail);
      assert current + [chars[0]] + chars[1..] == current + chars;
    }
  }

  /** A double quote flips the quote state and is dropped. */
  lemma {:induction false} ScanQuote(tail: string, inQuotes: bool, current: string)
    ensures ScanLine("\"" + tail, inQuotes, current) == ScanLine(tail, !inQuotes, current)
  {
    assert ("\"" + tail)[1..] == tail;
  }

  /** Scanning an encoded field outside quotes leaves the cell, with its
      padding, in the buffer. */
  lemma {:induction false} ScanField(cell: string, f: Layout, tail: string)
    requires Encodable(cell, f)
    ensures ScanLine(EncodeField(cell, f) + tail, false, "")
            == ScanLine(tail, false, f.before + cell + f.after)
  {
    WhitespacePlain(f.before);
    WhitespacePlain(f.after);
    var core := if f.quoted then "\"" + cell + "\"" else cell;
    assert EncodeField(cell, f) + tail == f.before + (core + (f.after + tail));
    ScanPlain(f.before, false, "", core + (f.after + tail));
    assert "" + f.before == f.before;
    if f.quoted {
      assert core + (f.after + tail) == "\"" + (cell + ("\"" + (f.after + tail)));
      ScanQuote(cell + ("\"" + (f.after + tail)), false, f.before);
      ScanPlain(cell, true, f.before, "\"" + (f.after + tail));
      ScanQuote(f.after + tail, true, f.before + cell);
    } else {
      ScanPlain(cell, false, f.before, f.after + tail);
    }
    ScanPlain(f.after, false, f.before + cell, tail);
  }

  /** A line of two or more cells is its first field, a comma, and the line
      of the others. */
  lemma {:induction false} EncodeLineCons(cells: seq<string>, layout: seq<Layout>)
    requires |cells| >= 2 && |layout| == |cells|
    ensures EncodeLine(cells, layout)
            == EncodeField(cells[0], layout[0]) + ([','] + EncodeLine(cells[1..], layout[1..]))
  {
    var fields := EncodeFields(cells, layout);
    assert fields[1..] == EncodeFields(cells[1..], layout[1..]);
  }

  /** A comma outside quotes pushes the trimmed buffer. */
  lemma {:induction false} ScanComma(rest: string, current: string)
    ensures ScanLine([','] + rest, false, current) == [Trim(current)] + ScanLine(rest, false, "")
  {
    assert ([','] + rest)[1..] == rest;
  }

  /** The tokenizer reads back every line the writer writes, whatever the
      mix of quoted and bare fields and whatever whitespace pads them. */
  lemma {:induction false} TokenizeEncodeLine(cells: seq<string>, layout: seq<Layout>)
    requires |cells| >= 1 && |layout| == |cells|
    requires forall i :: 0 <= i < |cells| ==> Encodable(cells[i], layout[i])
    ensures TokenizeLine(EncodeLine(cells, layout)) == cells
    decreases |cells|
  {
    var f := layout[0];
    assert Encodable(cells[0], f);
    TrimPadded(f.before, cells[0], f.after);
    if |cells| == 1 {
      assert EncodeLine(cells, layout) == EncodeField(cells[0], f) + "";
      ScanField(cells[0], f, "");
    } else {
      var rest := EncodeLine(cells[1..], layout[1..]);
      EncodeLineCons(cells, layout);
      ScanField(cells[0], f, [','] + rest);
      ScanComma(rest, f.before + cells[0] + f.after);
      TokenizeEncodeLine(cells[1..], layout[1..]);
      assert cells == [cells[0]] + cells[1..];
    }
  }

  /** `"a,b"` tokenizes to the single cell `a,b`: quotes go, the comma stays. */
  lemma {:induction false} QuotedCommaStays()
    ensures TokenizeLine("\"a,b\"") == ["a,b"]
  {
    var layout := [Layout("", true, "")];
    assert Encodable("a,b", layout[0]);
    TokenizeEncodeLine(["a,b"], layout);
    assert EncodeLine(["a,b"], layout) == "\"a,b\"";
  }

  /** A padded quoted field between bare ones: `2023, "Kerala, India" ,96.2`
      gives the three cells `2023`, `Kerala, India` and `96.2`. */
  lemma {:induction false} MixedLine()
    ensures TokenizeLine("2023, \"Kerala, India\" ,96.2") == ["2023", "Kerala, India", "96.2"]
  {
    var cells := ["2023", "Kerala, India", "96.2"];
    var layout := [Layout("", false, ""), Layout(" ", true, " "), Layout("", false, "")];
    MixedLineEncodable(cells, layout);
    TokenizeEncodeLine(cells, layout);
    MixedLineText(cells, layout);
  }

  // The three helpers below split `MixedLine`'s literal example into cheap
  // steps; their requires only name the example's cells and layout.

  lemma {:induction false} MixedLineEncodable(cells: seq<string>, layout: seq<Layout>)
    requires cells == ["2023", "Kerala, India", "96.2"]
    requires layout == [Layout("", false, ""), Layout(" ", true, " "), Layout("", false, "")]
    ensures forall i :: 0 <= i < |cells| ==> Encodable(cells[i], layout[i])
  {
    assert Encodable(cells[0], layout[0]);
    assert Encodable(cells[1], layout[1]);
    assert Encodable(cells[2], layout[2]);
  }

  lemma {:induction false} MixedLineText(cells: seq<string>, layout: seq<Layout>)
    requires cells == ["2023", "Kerala, India", "96.2"]
    requires layout == [Layout("", false, ""), Layout(" ", true, " "), Layout("", false, "")]
    ensures EncodeLine(cells, layout) == "2023, \"Kerala, India\" ,96.2"
  {
    var fields := EncodeFields(cells, layout);
    MixedLineFields(cells, layout);
    assert fields[1..][1..] == ["96.2"];
    assert Join(fields[1..], ',') == " \"Kerala, India\" " + [','] + "96.2";
    assert Join(fields, ',') == "2023" + [','] + (" \"Kerala, India\" " + [','] + "96.2");
  }

  lemma {:induction false} MixedLineFields(cells: seq<string>, layout: seq<Layout>)
    requires cells == ["2023", "Kerala, India", "96.2"]
    requires layout == [Layout("", false, ""), Layout(" ", true, " "), Layout("", false, "")]
    ensures EncodeFields(cells, layout) == ["2023", " \"Kerala, India\" ", "96.2"]
  {
    var fields := EncodeFields(cells, layout);
    assert fields[0] == "" + "2023" + "" == "2023";
    assert fields[1] == " " + ("\"" + "Kerala, India" + "\"") + " " == " \"Kerala, India\" ";
    assert fields[2] == "" + "96.2" + "" == "96.2";
  }

  /** One layout per cell, and at least one cell per row. */
  predicate Shaped(grid: seq<seq<string>>, layouts: seq<seq<Layout>>)
  {
    && |layouts| == |grid|
    && forall i :: 0 <= i < |grid| ==> |grid[i]| >= 1 && |layouts[i]| == |grid[i]|
  }

  /** The lines of a file, one per row. */
  function EncodeLines(grid: seq<seq<string>>, layouts: seq<seq<Layout>>): (lines: seq<string>)
    requires Shaped(grid, layouts)
    ensures |lines| == |grid|
  {
    seq(|grid|, i requires 0 <= i < |grid| => EncodeLine(grid[i], layouts[i]))
  }

  /** A whole file: the lines separated by line feeds. */
  function EncodeFile(grid: seq<seq<string>>, layouts: seq<seq<Layout>>): string
    requires |grid| >= 1 && Shaped(grid, layouts)
  {
    Join(EncodeLines(grid, layouts), '\n')
  }

  /** Neither the cell nor its padding holds a line feed. */
  predicate NoLineFeed(cell: string, f: Layout)
  {
    '\n' !in cell && '\n' !in f.before && '\n' !in f.after
  }

  /** Every field of the file reads back and stays on its line. */
  predicate FileEncodable(grid: seq<seq<string>>, layouts: seq<seq<Layout>>)
    requires Shaped(grid, layouts)
  {
    forall i, j :: 0 <= i < |grid| && 0 <= j < |grid[i]| ==>
      Encodable(grid[i][j], layouts[i][j]) && NoLineFeed(grid[i][j], layouts[i][j])
  }

  /** A row that is one bare empty cell: its line is nothing but padding,
      which trimming the whole text would remove at either end of a file. */
  predicate Blank(cells: seq<string>, layout: seq<Layout>)
  {
    |cells| == 1 && |layout| == 1 && cells[0] == "" && !layout[0].quoted
  }

  lemma {:induction false} FieldNoLineFeed(cell: string, f: Layout)
    requires NoLineFeed(cell, f)
    ensures '\n' !in EncodeField(cell, f)
  {
    var core := if f.quoted then "\"" + cell + "\"" else cell;
    assert '\n' !in core;
  }

  /** A written line holds no line feed when its cells and padding hold none. */
  lemma {:induction false} LineNoLineFeed(cells: seq<string>, layout: seq<Layout>)
    requires |cells| >= 1 && |layout| == |cells|
    requires forall j :: 0 <= j < |cells| ==> NoLineFeed(cells[j], layout[j])
    ensures '\n' !in EncodeLine(cells, layout)
  {
    var fields := EncodeFields(cells, layout);
    forall j | 0 <= j < |fields| ensures '\n' !in fields[j] {
      FieldNoLineFeed(cells[j], layout[j]);
    }
    JoinAvoids(fields, ',', '\n');
  }

  /** The line of a row that is not blank holds a character other than
      whitespace: a comma between fields, a double quote, or the first
      character of the one bare cell. */
  lemma {:induction false} NonBlankLine(cells: seq<string>, layout: seq<Layout>)
    requires |cells| >= 1 && |layout| == |cells|
    requires Encodable(cells[0], layout[0]) && !Blank(cells, layout)
    ensures !AllWhitespace(EncodeLine(cells, layout))
  {
    var fields := EncodeFields(cells, layout);
    var line := EncodeLine(cells, layout);
    if |cells| >= 2 {
      assert line == fields[0] + [','] + Join(fields[1..], ',');
      assert line[|fields[0]|] == ',';
    } else {
      var f := layout[0];
      var core := if f.quoted then "\"" + cells[0] + "\"" else cells[0];
      assert line == f.before + core + f.after;
      assert core[0] == (if f.quoted then '"' else cells[0][0]);
      assert line[|f.before|] == core[0];
    }
  }

  /** Whitespace buffered in front of the field under way is trimmed away
      with it. */
  lemma {:induction false} ScanBufferSpace(line: string, inQuotes: bool, w: string, current: string)
    requires AllWhitespace(w)
    ensures ScanLine(line, inQuotes, w + current) == ScanLine(line, inQuotes, current)
    decreases |line|
  {
    TrimPrependWhitespace(w, current);
    if |line| > 0 && line[0] != '"' && !(line[0] == ',' && !inQuotes) {
      assert w + current + [line[0]] == w + (current + [line[0]]);
      ScanBufferSpace(line[1..], inQuotes, w, current + [line[0]]);
    } else if |line| > 0 && line[0] == '"' {
      ScanBufferSpace(line[1..], !inQuotes, w, current);
    }
  }

  /** Whitespace at the end of a line is trimmed away with the last cell. */
  lemma {:induction false} ScanTrailingSpace(line: string, inQuotes: bool, current: string, w: string)
    requires AllWhitespace(w)
    ensures ScanLine(line + w, inQuotes, current) == ScanLine(line, inQuotes, current)
    decreases |line|
  {
    if |line| == 0 {
      assert line + w == w + "";
      WhitespacePlain(w);
      ScanPlain(w, inQuotes, current, "");
      TrimAppendSpace(current, w);
    } else {
      var s := line + w;
      assert s[0] == line[0] && s[1..] == line[1..] + w;
      var q := if line[0] == '"' then !inQuotes else inQuotes;
      var next := if line[0] == '"' then current
        else if line[0] == ',' && !inQuotes then ""
        else current + [line[0]];
      ScanTrailingSpace(line[1..], q, next, w);
    }
  }

  /** Whitespace around a line changes none of its cells. */
  lemma {:induction false} TokenizePadded(a: string, line: string, b: string)
    requires AllWhitespace(a) && AllWhitespace(b)
    ensures TokenizeLine(a + line + b) == TokenizeLine(line)
  {
    WhitespacePlain(a);
    assert a + line + b == a + (line + b);
    ScanPlain(a, false, "", line + b);
    assert "" + a == a + "";
    ScanBufferSpace(line + b, false, a, "");
    ScanTrailingSpace(line, false, "", b);
  }

  /** Each written line is free of line feeds and tokenizes to its row. */
  lemma {:induction false} EncodeLinesRead(grid: seq<seq<string>>, layouts: seq<seq<Layout>>)
    requires Shaped(grid, layouts) && FileEncodable(grid, layouts)
    ensures forall i :: 0 <= i < |grid| ==> '\n' !in EncodeLines(grid, layouts)[i]
    ensures forall i :: 0 <= i < |grid| ==> TokenizeLine(EncodeLines(grid, layouts)[i]) == grid[i]
  {
    forall i | 0 <= i < |grid|
      ensures '\n' !in EncodeLines(grid, layouts)[i]
      ensures TokenizeLine(EncodeLines(grid, layouts)[i]) == grid[i]
    {
      LineNoLineFeed(grid[i], layouts[i]);
      TokenizeEncodeLine(grid[i], layouts[i]);
    }
  }

  /** `parseCSV` reads back every file the writer writes from trimmed cells
      without double quotes or line feeds, whatever the mix of quoted and
      bare fields and of padding (a carriage return before each line feed
      included), unless a file of several rows starts or ends with a blank
      row, whose line trimming the whole text removes. */
  lemma {:induction false} ParseEncodeFile(grid: seq<seq<string>>, layouts: seq<seq<Layout>>)
    requires |grid| >= 1 && Shaped(grid, layouts) && FileEncodable(grid, layouts)
    requires |grid| == 1 || (!Blank(grid[0], layouts[0]) && !Blank(grid[|grid| - 1], layouts[|grid| - 1]))
    ensures ParseCSV(EncodeFile(grid, layouts)) == grid
  {
    var lines := EncodeLines(grid, layouts);
    EncodeLinesRead(grid, layouts);
    if |grid| == 1 {
      assert Join(lines, '\n') == lines[0];
      ParseOneLine(lines[0], grid[0]);
      assert [grid[0]] == grid;
    } else {
      var n := |grid|;
      assert Encodable(grid[0][0], layouts[0][0]);
      assert Encodable(grid[n - 1][0], layouts[n - 1][0]);
      NonBlankLine(grid[0], layouts[0]);
      NonBlankLine(grid[n - 1], layouts[n - 1]);
      ParseManyLines(lines, grid);
    }
  }

  /** A single line reads back as its cells: trimming the text only removes
      padding, which the tokenizer trims away anyway. */
  lemma {:induction false} ParseOneLine(line: string, row: seq<string>)
    requires '\n' !in line && TokenizeLine(line) == row
    ensures ParseCSV(line) == [row]
  {
    var k := LeadingSpace(line);
    var t := Trim(line);
    TrimSpan(line);
    assert line == line[..k] + t + line[k + |t|..];
    TokenizePadded(line[..k], t, line[k + |t|..]);
    SplitJoin([t], '\n');
    ParseLines(line, [t], [row]);
  }

  /** Lines joined by line feeds read back row by row when neither the
      first nor the last is blank: trimming the text only touches the
      padding at the start of the first line and at the end of the last. */
  lemma {:induction false} ParseManyLines(lines: seq<string>, grid: seq<seq<string>>)
    requires |lines| == |grid| >= 2
    requires !AllWhitespace(lines[0]) && !AllWhitespace(lines[|lines| - 1])
    requires forall i :: 0 <= i < |lines| ==> '\n' !in lines[i] && TokenizeLine(lines[i]) == grid[i]
    ensures ParseCSV(Join(lines, '\n')) == grid
  {
    var n := |lines|;
    var first, last := TrimStart(lines[0]), TrimEnd(lines[n - 1]);
    var trimmed := [first] + lines[1..n - 1] + [last];
    TrimJoinedLines(lines, '\n');
    assert '\n' !in first && TokenizeLine(first) == grid[0] by {
      var a := NonBlankStart(lines[0]);
      assert lines[0] == a + first + "";
      TokenizePadded(a, first, "");
    }
    assert '\n' !in last && TokenizeLine(last) == grid[n - 1] by {
      var b := NonBlankEnd(lines[n - 1]);
      assert lines[n - 1] == "" + last + b;
      TokenizePadded("", last, b);
    }
    forall i | 0 <= i < n
      ensures '\n' !in trimmed[i] && TokenizeLine(trimmed[i]) == grid[i]
    {
      if 0 < i < n - 1 {
        assert trimmed[i] == lines[i];
      }
    }
    SplitJoin(trimmed, '\n');
    ParseLines(Join(lines, '\n'), trimmed, grid);
  }

  /** `parseCSV` gives `grid` when the trimmed text splits into lines that
      each tokenize to the matching row. */
  lemma {:induction false} ParseLines(content: string, lines: seq<string>, grid: seq<seq<string>>)
    requires Split(Trim(content), '\n') == lines && |lines| == |grid|
    requires forall i :: 0 <= i < |grid| ==> TokenizeLine(lines[i]) == grid[i]
    ensures ParseCSV(content) == grid
  {
    var parsed := ParseCSV(content);
    assert forall i :: 0 <= i < |grid| ==> parsed[i] == TokenizeLine(lines[i]);
  }
}

=== FILE: numbers.dfy ===
/** The two JavaScript number readers the validator calls: `parseInt(s, 10)`
    for the year and `parseFloat(s)` for the value. Both skip leading
    whitespace, accept one optional sign and read the longest numeric prefix,
    ignoring whatever follows; when there is no such prefix they give `NaN`,
    modelled as `None`. The decimal formatter `ShowInt` is their partner. */
module Numbers {
  import opened Wrappers
  import opened Text

  predicate IsDigit(c: char)
  {
    '0' <= c <= '9'
  }

  predicate AllDigits(s: string)
  {
    forall i :: 0 <= i < |s| ==> IsDigit(s[i])
  }

  function DigitValue(c: char): nat
    requires IsDigit(c)
  {
    c as int - '0' as int
  }

  function DigitChar(d: nat): (c: char)
    requires d < 10
    ensures IsDigit(c) && DigitValue(c) == d
  {
    (d + '0' as int) as char
  }

  /** The longest run of digits at the front of `s`. */
  function DigitPrefix(s: string): (d: string)
    ensures IsPrefix(d, s) && AllDigits(d)
    ensures |d| == |s| || !IsDigit(s[|d|])
    decreases |s|
  {
    if |s| > 0 && IsDigit(s[0]) then [s[0]] + DigitPrefix(s[1..]) else ""
  }

  /** The number a run of decimal digits denotes, most significant first. */
  function DigitsValue(d: string): nat
    requires AllDigits(d)
    decreases |d|
  {
    if |d| == 0 then 0 else DigitsValue(d[..|d| - 1]) * 10 + DigitValue(d[|d| - 1])
  }

  /** True when `t` starts with a minus sign. */
  predicate IsMinus(t: string)
  {
    |t| > 0 && t[0] == '-'
  }

  /** `t` without one leading `+` or `-`. */
  function Unsigned(t: string): string
  {
    if |t| > 0 && (t[0] == '+' || t[0] == '-') then t[1..] else t
  }

  /** After leading whitespace and an optional sign, `s` starts with a digit. */
  predicate StartsInteger(s: string)
  {
    var b := Unsigned(TrimStart(s));
    |b| > 0 && IsDigit(b[0])
  }

  /** `parseInt(s, 10)`: an optional sign and the longest digit run after
      leading whitespace; `None` (NaN) when that run is empty. A negative
      result always comes from a minus sign. */
  function ParseInt(s: string): (r: Option<int>)
    ensures r.None? <==> !StartsInteger(s)
    ensures r.Some? && r.value < 0 ==> IsMinus(TrimStart(s))
  {
    var t := TrimStart(s);
    var d := DigitPrefix(Unsigned(t));
    if d == "" then None
    else if IsMinus(t) then Some(-(DigitsValue(d) as int))
    else Some(DigitsValue(d))
  }

  /** A number as `parseFloat` can return it: finite, or an infinity. */
  datatype Number = Finite(r: real) | Infinite(negative: bool)

  predicate IsNegative(n: Number)
  {
    match n
    case Finite(r) => r < 0.0
    case Infinite(neg) => neg
  }

  /** An exponent part `e` or `E`, optional sign, at least one digit, at the
      front of `s`. */
  function ExponentPart(s: string): Option<int>
  {
    if |s| > 0 && (s[0] == 'e' || s[0] == 'E') then
      var u := s[1..];
      var d := DigitPrefix(Unsigned(u));
      if d == "" then None
      else if IsMinus(u) then Some(-(DigitsValue(d) as int))
      else Some(DigitsValue(d))
    else None
  }

  /** `m` times ten to the power `e`, one factor of ten at a time. */
  function Scale(m: nat, e: int): (r: real)
    ensures r >= 0.0
    ensures e == 0 ==> r == m as real
    decreases if e >= 0 then e else -e
  {
    if e == 0 then m as real
    else if e > 0 then 10.0 * Scale(m, e - 1)
    else Scale(m, e + 1) / 10.0
  }

  /** After leading whitespace and an optional sign, `s` starts with
      `Infinity`, a digit, or a point followed by a digit. */
  predicate StartsNumber(s: string)
  {
    var b := Unsigned(TrimStart(s));
    IsPrefix("Infinity", b) || StartsDecimal(b)
  }

  /** After an optional sign, `b` starts with a digit, or a point followed
      by a digit. */
  predicate StartsDecimal(b: string)
  {
    (|b| > 0 && IsDigit(b[0])) || (|b| > 1 && b[0] == '.' && IsDigit(b[1]))
  }

  /** The magnitude read from the front of unsigned text `b`: digits,
      optional point and fraction digits (at least one digit in all), then an
      optional exponent. The value is the digits read as one integer, scaled
      by the exponent less the number of fraction digits. */
  function ParseDecimal(b: string): (r: Option<real>)
    ensures r.None? <==> !StartsDecimal(b)
    ensures r.Some? ==> r.value >= 0.0
  {
    var intDigits := DigitPrefix(b);
    var rest := b[|intDigits|..];
    var hasPoint := |rest| > 0 && rest[0] == '.';
    var fracDigits := if hasPoint then DigitPrefix(rest[1..]) else "";
    assert intDigits == "" ==> rest == b;
    assert (intDigits == "" && fracDigits == "") <==> !StartsDecimal(b);
    if intDigits == "" && fracDigits == "" then None
    else
      var tail := if hasPoint then rest[1 + |fracDigits|..] else rest;
      var exponent := match ExponentPart(tail) case Some(e) => e case None => 0;
      Some(Scale(DigitsValue(intDigits + fracDigits), exponent - |fracDigits|))
  }

  /** `parseFloat(s)` over the reals: after leading whitespace and an
      optional sign, `Infinity` or a decimal prefix. `None` (NaN) exactly
      when neither is there, and a negative result always comes from a minus
      sign. */
  function ParseFloat(s: string): (r: Option<Number>)
    ensures r.None? <==> !StartsNumber(s)
    ensures r.Some? ==> (IsNegative(r.value) <==> IsMinus(TrimStart(s)) && r.value != Finite(0.0))
  {
    var t := TrimStart(s);
    var b := Unsigned(t);
    if IsPrefix("Infinity", b) then Some(Infinite(IsMinus(t)))
    else
      match ParseDecimal(b)
      case None => None
      case Some(m) => Some(Finite(if IsMinus(t) then -m else m))
  }

  /** Decimal digits of `n`, without leading zeros. */
  function ShowNat(n: nat): (s: string)
    ensures |s| >= 1 && AllDigits(s)
    decreases n
  {
    if n < 10 then [DigitChar(n)] else ShowNat(n / 10) + [DigitChar(n % 10)]
  }

  /** Decimal text of `n`, with a minus sign when negative. */
  function ShowInt(n: int): (s: string)
    ensures |s| >= 1 && (IsDigit(s[0]) || s[0] == '-')
  {
    if n < 0 then "-" + ShowNat(-n) else ShowNat(n)
  }

  lemma {:induction false} DigitsValueShowNat(n: nat)
    ensures DigitsValue(ShowNat(n)) == n
    decreases n
  {
    if n >= 10 {
      var s := ShowNat(n / 10) + [DigitChar(n % 10)];
      assert s[..|s| - 1] == ShowNat(n / 10);
      DigitsValueShowNat(n / 10);
    }
  }

  /** The digit prefix of a digit run followed by a non-digit is the run. */
  lemma {:induction false} DigitPrefixOfDigits(d: string, suffix: string)
    requires AllDigits(d)
    requires |suffix| == 0 || !IsDigit(suffix[0])
    ensures DigitPrefix(d + suffix) == d
    decreases |d|
  {
    if |d| == 0 {
      assert d + suffix == suffix;
    } else {
      assert (d + suffix)[0] == d[0];
      assert (d + suffix)[1..] == d[1..] + suffix;
      DigitPrefixOfDigits(d[1..], suffix);
      assert d == [d[0]] + d[1..];
    }
  }

  /** Text that starts with a digit or a sign has nothing for `trim` to skip. */
  lemma {:induction false} TrimStartSigned(s: string)
    requires |s| > 0 && (IsDigit(s[0]) || s[0] == '-')
    ensures LeadingSpace(s) == 0 && TrimStart(s) == s
  {
    assert !IsWhitespace(s[0]);
  }

  /** Without leading whitespace, `ShowInt(n) + suffix` is the minus sign (if
      any) in front of the digits of `|n|` followed by `suffix`. */
  lemma {:induction false} ShowIntParts(n: int, suffix: string)
    ensures LeadingSpace(ShowInt(n) + suffix) == 0
    ensures IsMinus(ShowInt(n) + suffix) <==> n < 0
    ensures Unsigned(ShowInt(n) + suffix) == ShowNat(if n < 0 then -n else n) + suffix
  {
    var s := ShowInt(n) + suffix;
    var d := ShowNat(if n < 0 then -n else n);
    if n < 0 {
      assert s == ['-'] + (d + suffix);
      assert s[0] == '-' && s[1..] == d + suffix;
    } else {
      assert s == d + suffix;
      assert s[0] == d[0] && IsDigit(s[0]);
    }
    TrimStartSigned(s);
  }

  /** `parseInt` reads back what `ShowInt` writes, whatever non-digit text
      follows it: `"2023abc"` reads as 2023. */
  lemma {:induction false} ParseIntShowInt(n: int, suffix: string)
    requires |suffix| == 0 || !IsDigit(suffix[0])
    ensures ParseInt(ShowInt(n) + suffix) == Some(n)
  {
    var m: nat := if n < 0 then -n else n;
    ShowIntParts(n, suffix);
    DigitPrefixOfDigits(ShowNat(m), suffix);
    DigitsValueShowNat(m);
  }

  /** A sign (none, `+` or `-`) in front of a non-empty digit run: `trim`
      skips nothing, the sign comes off as one character, and only `-`
      counts as a minus. */
  lemma {:induction false} SignedStart(sign: string, d: string, suffix: string)
    requires sign == "" || sign == "+" || sign == "-"
    requires |d| >= 1 && AllDigits(d)
    ensures var x := sign + d + suffix;
      TrimStart(x) == x && Unsigned(x) == d + suffix && (IsMinus(x) <==> sign == "-")
  {
    var x := sign + d + suffix;
    if sign == "" {
      assert x == d + suffix && x[0] == d[0];
    } else {
      assert x == [sign[0]] + (d + suffix);
      assert x[1..] == d + suffix;
    }
    assert !IsWhitespace(x[0]);
  }

  /** `parseInt` on any text it reads as a number: leading whitespace, an
      optional `+` or `-`, a digit run (leading zeros allowed), then nothing
      or a non-digit. The result is the run's value, negated after `-`, so
      `" +02023"` reads as 2023. */
  lemma {:induction false} ParseIntSigned(w: string, sign: string, d: string, suffix: string)
    requires AllWhitespace(w)
    requires sign == "" || sign == "+" || sign == "-"
    requires |d| >= 1 && AllDigits(d)
    requires |suffix| == 0 || !IsDigit(suffix[0])
    ensures ParseInt(w + sign + d + suffix)
      == Some(if sign == "-" then -(DigitsValue(d) as int) else DigitsValue(d))
  {
    var x := sign + d + suffix;
    assert TrimStart(w + sign + d + suffix) == x by {
      assert w + sign + d + suffix == w + x;
      SignedStart(sign, d, suffix);
      TrimStartAppend(w, x);
    }
    assert DigitPrefix(Unsigned(x)) == d && (IsMinus(x) <==> sign == "-") by {
      SignedStart(sign, d, suffix);
      DigitPrefixOfDigits(d, suffix);
    }
  }

  /** `parseInt(" +02023")` is 2023: whitespace, a plus sign and a leading
      zero are all skipped. */
  lemma {:induction false} PlusPaddedYear()
    ensures ParseInt(" +02023") == Some(2023)
  {
    PlusPaddedYearParts();
    ParseIntSigned(" ", "+", "02023", "");
  }

  /** The literal example ` +02023` split into cheap steps. */
  lemma PlusPaddedYearParts()
    ensures AllWhitespace(" ") && AllDigits("02023")
    ensures " " + "+" + "02023" + "" == " +02023"
    ensures DigitsValue("02023") == 2023
  {
    assert "02023"[..4] == "0202" && "0202"[..3] == "020";
    assert "020"[..2] == "02" && "02"[..1] == "0" && "0"[..0] == "";
  }

  /** A bare run of digits reads as the number it denotes. */
  lemma {:induction false} ParseDecimalDigits(d: string)
    requires |d| >= 1 && AllDigits(d)
    ensures ParseDecimal(d) == Some(DigitsValue(d) as real)
  {
    DigitPrefixOfDigits(d, "");
    assert d + "" == d;
    assert d[|d|..] == "";
    assert ExponentPart("") == None;
  }

  /** Text starting with a digit does not start with `Infinity`. */
  lemma {:induction false} DigitNotInfinity(b: string)
    requires |b| > 0 && IsDigit(b[0])
    ensures !IsPrefix("Infinity", b)
  {
    if |b| >= 8 {
      assert b[..8][0] == b[0];
      assert "Infinity"[0] == 'I';
    }
  }

  /** `parseFloat` reads back the decimal text of an integer. */
  lemma {:induction false} ParseFloatShowInt(n: int)
    ensures ParseFloat(ShowInt(n)) == Some(Finite(n as real))
  {
    var m: nat := if n < 0 then -n else n;
    var d := ShowNat(m);
    ShowIntParts(n, "");
    assert ShowInt(n) + "" == ShowInt(n);
    assert d + "" == d;
    DigitNotInfinity(d);
    ParseDecimalDigits(d);
    DigitsValueShowNat(m);
  }

  /** Ten to the power `k`. */
  function Pow10(k: nat): (p: nat)
    ensures p >= 1
  {
    if k == 0 then 1 else 10 * Pow10(k - 1)
  }

  lemma {:induction false} AllDigitsConcat(a: string, f: string)
    requires AllDigits(a) && AllDigits(f)
    ensures AllDigits(a + f)
  {
    assert forall i :: 0 <= i < |a| ==> (a + f)[i] == a[i];
    assert forall i :: |a| <= i < |a| + |f| ==> (a + f)[i] == f[i - |a|];
  }

  /** Digits appended to a digit run shift its value left by their count. */
  lemma {:induction false} DigitsValueAppend(a: string, f: string)
    requires AllDigits(a) && AllDigits(f)
    ensures AllDigits(a + f)
    ensures DigitsValue(a + f) == DigitsValue(a) * Pow10(|f|) + DigitsValue(f)
    decreases |f|
  {
    AllDigitsConcat(a, f);
    if |f| == 0 {
      assert a + f == a;
    } else {
      var s := a + f;
      var f' := f[..|f| - 1];
      assert AllDigits(f') by {
        assert forall i :: 0 <= i < |f'| ==> f'[i] == f[i];
      }
      assert s[..|s| - 1] == a + f';
      assert s[|s| - 1] == f[|f| - 1];
      DigitsValueAppend(a, f');
      AppendDigitStep(DigitsValue(a), Pow10(|f'|), DigitsValue(f'), DigitValue(f[|f| - 1]));
    }
  }

  lemma AppendDigitStep(a: int, p: int, d: int, v: int)
    ensures (a * p + d) * 10 + v == a * (p * 10) + (d * 10 + v)
  {
    MulTen(a, p);
  }

  lemma MulTen(a: int, b: int)
    ensures a * b * 10 == a * (b * 10)
  {
  }

  /** A negative exponent divides by the matching power of ten. */
  lemma {:induction false} ScaleDown(m: nat, k: nat)
    ensures Scale(m, -(k as int)) == m as real / Pow10(k) as real
    decreases k
  {
    if k > 0 {
      ScaleDown(m, k - 1);
      var p := Pow10(k - 1) as real;
      assert Scale(m, -(k as int)) == Scale(m, -((k - 1) as int)) / 10.0;
      DivTen(m as real, p);
    }
  }

  lemma DivTen(x: real, p: real)
    requires p > 0.0
    ensures (x / p) / 10.0 == x / (p * 10.0)
  {
  }

  /** The text of a decimal fraction: an optional minus sign, the digits of
      `m`, a point and the fraction digits `f`. */
  function DecimalText(negative: bool, m: nat, f: string): string
  {
    (if negative then "-" else "") + ShowNat(m) + "." + f
  }

  /** The value of the digits of `m`, a point and the fraction digits `f`:
      `m` plus `f` read as an integer over the matching power of ten. */
  function DecimalValue(m: nat, f: string): (x: real)
    requires AllDigits(f)
    ensures x >= 0.0
    ensures x == 0.0 <==> m == 0 && DigitsValue(f) == 0
  {
    FractionNonNegative(m as real, DigitsValue(f) as real, Pow10(|f|) as real);
    m as real + DigitsValue(f) as real / Pow10(|f|) as real
  }

  lemma FractionNonNegative(m: real, d: real, p: real)
    requires m >= 0.0 && d >= 0.0 && p > 0.0
    ensures m + d / p >= 0.0
    ensures m + d / p == 0.0 <==> m == 0.0 && d == 0.0
  {
  }

  /** `parseFloat` reads a decimal fraction as its value, `m` plus the
      fraction digits over the matching power of ten, negated after a minus
      sign: `"-5.5"` reads as -5.5. */
  lemma {:induction false} ParseFloatDecimal(negative: bool, m: nat, f: string)
    requires |f| >= 1 && AllDigits(f)
    ensures var x := DecimalValue(m, f);
      ParseFloat(DecimalText(negative, m, f)) == Some(Finite(if negative then -x else x))
  {
    var d := ShowNat(m);
    var s := DecimalText(negative, m, f);
    var b := d + ("." + f);
    if negative {
      assert s == ['-'] + b;
      assert s[0] == '-' && s[1..] == b;
    } else {
      assert s == b;
      assert s[0] == d[0];
    }
    TrimStartSigned(s);
    assert Unsigned(s) == b;
    DigitNotInfinity(b);
    ParseDecimalFraction(m, f);
  }

  /** Unsigned, the same text reads as `m` plus the fraction. */
  lemma {:induction false} ParseDecimalFraction(m: nat, f: string)
    requires |f| >= 1 && AllDigits(f)
    ensures ParseDecimal(ShowNat(m) + ("." + f))
            == Some(DecimalValue(m, f))
  {
    ParseDecimalPoint(ShowNat(m), f);
    FractionValue(m, f);
  }

  /** Digits, a point and fraction digits read as all the digits together,
      scaled down by the number of fraction digits. */
  lemma {:induction false} ParseDecimalPoint(d: string, f: string)
    requires |d| >= 1 && AllDigits(d) && AllDigits(f)
    ensures AllDigits(d + f)
    ensures ParseDecimal(d + ("." + f)) == Some(Scale(DigitsValue(d + f), -(|f| as int)))
  {
    AllDigitsConcat(d, f);
    PointPieces(d, f);
    assert ExponentPart("") == None;
  }

  /** The pieces `ParseDecimal` cuts `d.f` into: the integer digits `d`, the
      point, the fraction digits `f`, and nothing after them. */
  lemma {:induction false} PointPieces(d: string, f: string)
    requires AllDigits(d) && AllDigits(f)
    ensures var b := d + ("." + f);
      DigitPrefix(b) == d && b[|d|..] == "." + f
      && DigitPrefix(("." + f)[1..]) == f && ("." + f)[1 + |f|..] == ""
  {
    var b := d + ("." + f);
    DigitPrefixOfDigits(d, "." + f);
    assert b[|d|..] == "." + f;
    assert ("." + f)[1..] == f + "";
    DigitPrefixOfDigits(f, "");
  }

  /** The digits of `m` followed by `f`, scaled down by `|f|` places, are `m`
      plus the fraction. */
  lemma {:induction false} FractionValue(m: nat, f: string)
    requires AllDigits(f)
    ensures AllDigits(ShowNat(m) + f)
    ensures Scale(DigitsValue(ShowNat(m) + f), -(|f| as int))
            == DecimalValue(m, f)
  {
    var d := ShowNat(m);
    DigitsValueAppend(d, f);
    DigitsValueShowNat(m);
    var n := DigitsValue(d + f);
    ScaleDown(n, |f|);
    SplitQuotient(n, m, Pow10(|f|), DigitsValue(f));
  }

  /** `(m * p + x) / p` is `m` plus `x / p`, over the reals. */
  lemma SplitQuotient(n: nat, m: nat, p: nat, x: nat)
    requires p >= 1 && n == m * p + x
    ensures n as real / p as real == m as real + x as real / p as real
  {
    RealOfProduct(m, p);
    DivSplit(m as real, x as real, p as real);
  }

  lemma RealOfProduct(a: nat, b: nat)
    ensures (a * b) as real == a as real * b as real
  {
  }

  lemma DivSplit(a: real, b: real, p: real)
    requires p > 0.0
    ensures (a * p + b) / p == a + b / p
  {
  }

  /** `"-5.5"` reads as -5.5. */
  lemma {:induction false} MinusFivePointFive()
    ensures ParseFloat("-5.5") == Some(Finite(-5.5))
  {
    FivePointFiveText();
    ParseFloatDecimal(true, 5, "5");
  }

  /** The literal example `-5.5` split into cheap steps. */
  lemma FivePointFiveText()
    ensures AllDigits("5") && DecimalText(true, 5, "5") == "-5.5"
    ensures DecimalValue(5, "5") == 5.5
  {
    assert ShowNat(5) == "5";
    assert DigitsValue("5") == 5;
    assert Pow10(1) == 10;
  }
}

=== FILE: pipeline.dfy ===
/** `parseAndValidateFile` (src/utils/fileParser.ts): tokenize the file,
    refuse it outright when it lacks a header line and a data line, and
    otherwise validate every data row against the header, numbering rows as
    they appear in the file (data row `i` is line `i + 2`) and concatenating
    the diagnostics in row order. */
module Pipeline {
  import opened Text
  import opened Csv
  import opened Validation

  datatype FileResult = FileResult(rows: seq<ParsedRow>, errors: seq<ValidationError>, headers: seq<string>)

  /** The answer for a file without a header line and a data line. */
  const FatalResult := FileResult([], [ValidationError(0, "", NoDataRows, "")], [])

  /** Diagnostics never go back to an earlier row. */
  predicate SortedByRow(errors: seq<ValidationError>)
  {
    forall i, j :: 0 <= i < j < |errors| ==> errors[i].row <= errors[j].row
  }

  /** The diagnostics that carry row number `n`, in order. */
  function ErrorsOfRow(errors: seq<ValidationError>, n: int): seq<ValidationError>
  {
    if |errors| == 0 then []
    else if errors[0].row == n then [errors[0]] + ErrorsOfRow(errors[1..], n)
    else ErrorsOfRow(errors[1..], n)
  }

  /** A row has no diagnostics exactly when none carries its number, and
      those it has come from the list. */
  lemma {:induction false} ErrorsOfRowEmpty(errors: seq<ValidationError>, n: int)
    ensures ErrorsOfRow(errors, n) == [] <==> forall e :: e in errors ==> e.row != n
    ensures forall e :: e in ErrorsOfRow(errors, n) ==> e in errors && e.row == n
    decreases |errors|
  {
    if |errors| > 0 {
      ErrorsOfRowEmpty(errors[1..], n);
      assert forall e :: e in errors <==> e == errors[0] || e in errors[1..];
    }
  }

  lemma {:induction false} ErrorsOfRowAppend(a: seq<ValidationError>, b: seq<ValidationError>, n: int)
    ensures ErrorsOfRow(a + b, n) == ErrorsOfRow(a, n) + ErrorsOfRow(b, n)
    decreases |a|
  {
    if |a| == 0 {
      assert a + b == b;
    } else {
      assert (a + b)[0] == a[0];
      assert (a + b)[1..] == a[1..] + b;
      ErrorsOfRowAppend(a[1..], b, n);
    }
  }

  lemma {:induction false} ErrorsOfRowAll(errors: seq<ValidationError>, n: int)
    requires forall e :: e in errors ==> e.row == n
    ensures ErrorsOfRow(errors, n) == errors
    decreases |errors|
  {
    if |errors| > 0 {
      assert errors[0] in errors;
      assert forall e :: e in errors[1..] ==> e in errors;
      ErrorsOfRowAll(errors[1..], n);
      assert errors == [errors[0]] + errors[1..];
    }
  }

  /** Each result's diagnostics carry its file line number: `first` for the
      first result, one more for each later one. */
  predicate RowsNumbered(results: seq<RowResult>, first: int)
  {
    forall i, e :: 0 <= i < |results| && e in results[i].errors ==> e.row == first + i
  }

  lemma {:induction false} RowsNumberedTail(results: seq<RowResult>, first: int)
    requires |results| > 0 && RowsNumbered(results, first)
    ensures RowsNumbered(results[1..], first + 1)
    ensures forall e :: e in results[0].errors ==> e.row == first
  {
    forall i, e | 0 <= i < |results[1..]| && e in results[1..][i].errors
      ensures e.row == first + 1 + i
    {
      assert results[1..][i] == results[i + 1];
    }
  }

  /** The diagnostics of the `forEach` over data rows, appended result by
      result: every one is numbered within the range, they are in row
      order, and those numbered `first + i` are exactly result `i`'s. */
  function ConcatErrors(results: seq<RowResult>, first: int): (errors: seq<ValidationError>)
    requires RowsNumbered(results, first)
    ensures forall e :: e in errors ==> first <= e.row < first + |results|
    ensures SortedByRow(errors)
    ensures forall i :: 0 <= i < |results| ==> ErrorsOfRow(errors, first + i) == results[i].errors
    decreases |results|
  {
    if |results| == 0 then []
    else
      RowsNumberedTail(results, first);
      var tail := ConcatErrors(results[1..], first + 1);
      ConsSorted(results[0].errors, tail, first, first + |results|);
      ConsByRow(results[0].errors, tail, first, results);
      results[0].errors + tail
  }

  /** The body of the `forEach` over data rows: push each parsed row and
      append its diagnostics. There is one parsed row per result, in order;
      every diagnostic is numbered within the range; the diagnostics are in
      row order; and those numbered `first + i` are exactly result `i`'s. */
  function Collect(results: seq<RowResult>, first: int): (r: (seq<ParsedRow>, seq<ValidationError>))
    requires RowsNumbered(results, first)
    ensures |r.0| == |results|
    ensures forall i :: 0 <= i < |results| ==> r.0[i] == results[i].parsedRow
    ensures forall e :: e in r.1 ==> first <= e.row < first + |results|
    ensures SortedByRow(r.1)
    ensures forall i :: 0 <= i < |results| ==> ErrorsOfRow(r.1, first + i) == results[i].errors
  {
    (seq(|results|, i requires 0 <= i < |results| => results[i].parsedRow), ConcatErrors(results, first))
  }

  /** A result is valid exactly when it raised nothing. */
  predicate RowsConsistent(results: seq<RowResult>)
  {
    forall k :: 0 <= k < |results| ==> (results[k].parsedRow.isValid <==> results[k].errors == [])
  }

  /** After collecting, parsed row `k` is result `k`'s and the diagnostics
      numbered `k + first` are result `k`'s. */
  lemma {:induction false} CollectAt(results: seq<RowResult>, first: int)
    requires RowsNumbered(results, first)
    ensures var c := Collect(results, first);
      forall k :: 0 <= k < |results| ==>
        c.0[k] == results[k].parsedRow && ErrorsOfRow(c.1, k + first) == results[k].errors
  {
    var c := Collect(results, first);
    forall k | 0 <= k < |results|
      ensures ErrorsOfRow(c.1, k + first) == results[k].errors
    {
      assert ErrorsOfRow(c.1, first + k) == results[k].errors;
    }
  }

  /** The same for one result `v` at position `k`, numbered `n`. */
  lemma {:induction false} CollectOne(results: seq<RowResult>, first: int, k: int, n: int, v: RowResult)
    requires RowsNumbered(results, first)
    requires 0 <= k < |results| && results[k] == v && n == k + first
    ensures Collect(results, first).0[k] == v.parsedRow
    ensures ErrorsOfRow(Collect(results, first).1, n) == v.errors
  {
    CollectAt(results, first);
  }

  /** After collecting consistent results, a parsed row is valid exactly
      when no diagnostic carries its number. */
  lemma {:induction false} CollectValid(results: seq<RowResult>, first: int)
    requires RowsNumbered(results, first) && RowsConsistent(results)
    ensures var c := Collect(results, first);
      forall k :: 0 <= k < |c.0| ==> (c.0[k].isValid <==> forall e :: e in c.1 ==> e.row != k + first)
  {
    var c := Collect(results, first);
    forall k | 0 <= k < |c.0|
      ensures c.0[k].isValid <==> forall e :: e in c.1 ==> e.row != k + first
    {
      CollectAt(results, first);
      ErrorsOfRowEmpty(c.1, k + first);
    }
  }

  /** After collecting consistent results, there is no diagnostic at all
      exactly when every parsed row is valid. */
  lemma {:induction false} CollectNoErrors(results: seq<RowResult>, first: int)
    requires RowsNumbered(results, first) && RowsConsistent(results)
    ensures var c := Collect(results, first);
      c.1 == [] <==> forall k :: 0 <= k < |c.0| ==> c.0[k].isValid
  {
    var c := Collect(results, first);
    CollectValid(results, first);
    if c.1 != [] {
      var e := c.1[0];
      assert e in c.1;
      assert !c.0[e.row - first].isValid;
    }
  }

  /** Diagnostics of line `first` followed by sorted diagnostics of later
      lines are sorted. */
  lemma {:induction false} ConsSorted(head: seq<ValidationError>, tail: seq<ValidationError>, first: int, end: int)
    requires first < end
    requires forall e :: e in head ==> e.row == first
    requires forall e :: e in tail ==> first + 1 <= e.row < end
    requires SortedByRow(tail)
    ensures forall e :: e in head + tail ==> first <= e.row < end
    ensures SortedByRow(head + tail)
  {
    var errors := head + tail;
    forall i, j | 0 <= i < j < |errors|
      ensures errors[i].row <= errors[j].row
    {
      if j < |head| {
        assert errors[i] in head && errors[j] in head;
      } else if i < |head| {
        assert errors[i] in head;
        assert errors[j] == tail[j - |head|];
        assert errors[j] in tail;
      } else {
        assert errors[i] == tail[i - |head|];
        assert errors[j] == tail[j - |head|];
      }
    }
  }

  /** Prepending line `first`'s diagnostics to those of later lines. */
  lemma {:induction false} ConsByRowAt(head: seq<ValidationError>, tail: seq<ValidationError>, first: int, i: nat)
    requires forall e :: e in head ==> e.row == first
    requires forall e :: e in tail ==> first + 1 <= e.row
    ensures i == 0 ==> ErrorsOfRow(head + tail, first) == head
    ensures i > 0 ==> ErrorsOfRow(head + tail, first + i) == ErrorsOfRow(tail, first + i)
  {
    ErrorsOfRowAppend(head, tail, first + i);
    if i == 0 {
      ErrorsOfRowAll(head, first);
      ErrorsOfRowEmpty(tail, first);
      assert head + [] == head;
    } else {
      ErrorsOfRowEmpty(head, first + i);
      assert [] + ErrorsOfRow(tail, first + i) == ErrorsOfRow(tail, first + i);
    }
  }

  lemma {:induction false} ConsByRow(head: seq<ValidationError>, tail: seq<ValidationError>, first: int, results: seq<RowResult>)
    requires |results| > 0 && head == results[0].errors
    requires forall e :: e in head ==> e.row == first
    requires forall e :: e in tail ==> first + 1 <= e.row
    requires forall i :: 0 <= i < |results| - 1 ==> ErrorsOfRow(tail, first + 1 + i) == results[1..][i].errors
    ensures forall i :: 0 <= i < |results| ==> ErrorsOfRow(head + tail, first + i) == results[i].errors
  {
    forall i | 0 <= i < |results|
      ensures ErrorsOfRow(head + tail, first + i) == results[i].errors
    {
      ConsByRowAt(head, tail, first, i);
      if i > 0 {
        assert results[1..][i - 1] == results[i];
      }
    }
  }

  // ----- the loop over data lines, for any row check -----

  /** What the loop calls on each data line: its cells and its file line
      number give a parsed row and that line's diagnostics. */
  type RowCheck = (seq<string>, int) -> RowResult

  /** Every diagnostic a check raises carries the line number it was given. */
  ghost predicate NumbersLines(check: RowCheck)
  {
    forall cells, n, e :: e in check(cells, n).errors ==> e.row == n
  }

  /** A check's parsed row is valid exactly when it raised nothing. */
  ghost predicate ValidWhenSilent(check: RowCheck)
  {
    forall cells, n :: check(cells, n).parsedRow.isValid <==> check(cells, n).errors == []
  }

  /** Line `i` of the grid, or no cells past its end. */
  function LineAt(parsed: seq<seq<string>>, i: int): seq<string>
  {
    if 0 <= i < |parsed| then parsed[i] else []
  }

  /** `check` applied to every data line in order: grid line `k + 1` (the
      header is line 0) as file line `k + 2`. */
  function CheckLines(parsed: seq<seq<string>>, check: RowCheck): (results: seq<RowResult>)
    requires |parsed| >= 1
    ensures |results| == |parsed| - 1
    ensures forall k :: 0 <= k < |results| ==> results[k] == check(parsed[k + 1], k + 2)
  {
    var results := seq(|parsed| - 1, k => check(LineAt(parsed, k + 1), k + 2));
    assert forall k :: 0 <= k < |results| ==> results[k] == check(LineAt(parsed, k + 1), k + 2);
    results
  }

  lemma {:induction false} CheckLinesNumbered(parsed: seq<seq<string>>, check: RowCheck)
    requires |parsed| >= 1 && NumbersLines(check)
    ensures RowsNumbered(CheckLines(parsed, check), 2)
  {
    var results := CheckLines(parsed, check);
    forall k, e | 0 <= k < |results| && e in results[k].errors
      ensures e.row == 2 + k
    {
      assert results[k] == check(parsed[k + 1], k + 2);
    }
  }

  lemma {:induction false} CheckLinesConsistent(parsed: seq<seq<string>>, check: RowCheck)
    requires |parsed| >= 1 && ValidWhenSilent(check)
    ensures RowsConsistent(CheckLines(parsed, check))
  {
    var results := CheckLines(parsed, check);
    forall k | 0 <= k < |results|
      ensures results[k].parsedRow.isValid <==> results[k].errors == []
    {
      assert results[k] == check(parsed[k + 1], k + 2);
    }
  }

  /** Everything after tokenizing: refuse a grid without a header line and
      a data line, otherwise check each later line and collect. */
  function CheckGrid(parsed: seq<seq<string>>, check: RowCheck): (r: FileResult)
    requires NumbersLines(check)
    ensures |parsed| < 2 ==> r == FatalResult
    ensures |parsed| >= 2 ==> r.headers == parsed[0] && |r.rows| == |parsed| - 1
  {
    if |parsed| < 2 then FatalResult
    else
      var results := CheckLines(parsed, check);
      CheckLinesNumbered(parsed, check);
      var c := Collect(results, 2);
      FileResult(c.0, c.1, parsed[0])
  }

  /** Parsed row `k` is the check of grid line `k + 1` as line `k + 2`. */
  lemma {:induction false} CheckGridRows(parsed: seq<seq<string>>, check: RowCheck)
    requires |parsed| >= 2 && NumbersLines(check)
    ensures forall k :: 0 <= k < |parsed| - 1 ==> CheckGrid(parsed, check).rows[k] == check(parsed[k + 1], k + 2).parsedRow
  {
    CheckLinesNumbered(parsed, check);
    CollectAt(CheckLines(parsed, check), 2);
  }

  /** The diagnostics numbered `n` are the check's of grid line `n - 1`. */
  lemma {:induction false} CheckGridLineErrors(parsed: seq<seq<string>>, check: RowCheck)
    requires |parsed| >= 2 && NumbersLines(check)
    ensures forall n :: 2 <= n <= |parsed| ==> ErrorsOfRow(CheckGrid(parsed, check).errors, n) == check(parsed[n - 1], n).errors
  {
    var results := CheckLines(parsed, check);
    CheckLinesNumbered(parsed, check);
    forall n | 2 <= n <= |parsed|
      ensures ErrorsOfRow(CheckGrid(parsed, check).errors, n) == check(parsed[n - 1], n).errors
    {
      assert results[n - 2] == check(parsed[n - 1], n);
      CollectOne(results, 2, n - 2, n, check(parsed[n - 1], n));
    }
  }

  /** The diagnostics are numbered within the data lines, in line order. */
  lemma {:induction false} CheckGridErrors(parsed: seq<seq<string>>, check: RowCheck)
    requires |parsed| >= 2 && NumbersLines(check)
    ensures forall e :: e in CheckGrid(parsed, check).errors ==> 2 <= e.row <= |parsed|
    ensures SortedByRow(CheckGrid(parsed, check).errors)
  {
  }

  /** A row is valid exactly when no diagnostic carries its line number. */
  lemma {:induction false} CheckGridValid(parsed: seq<seq<string>>, check: RowCheck)
    requires NumbersLines(check) && ValidWhenSilent(check)
    ensures var r := CheckGrid(parsed, check);
      forall k :: 0 <= k < |r.rows| ==> (r.rows[k].isValid <==> forall e :: e in r.errors ==> e.row != k + 2)
  {
    if |parsed| >= 2 {
      CheckLinesNumbered(parsed, check);
      CheckLinesConsistent(parsed, check);
      CollectValid(CheckLines(parsed, check), 2);
    }
  }

  /** No diagnostic at all exactly when there are rows and all are valid. */
  lemma {:induction false} CheckGridNoErrors(parsed: seq<seq<string>>, check: RowCheck)
    requires NumbersLines(check) && ValidWhenSilent(check)
    ensures var r := CheckGrid(parsed, check);
      r.errors == [] <==> (|r.rows| > 0 && forall k :: 0 <= k < |r.rows| ==> r.rows[k].isValid)
  {
    if |parsed| >= 2 {
      CheckLinesNumbered(parsed, check);
      CheckLinesConsistent(parsed, check);
      CollectNoErrors(CheckLines(parsed, check), 2);
    }
  }

  // ----- the loop with `validateRow` -----

  /** `validateRow` against `headers` and the catalog, as the loop's check. */
  function RowValidator(headers: seq<string>, catalog: seq<string>): (check: RowCheck)
    ensures NumbersLines(check) && ValidWhenSilent(check)
    ensures forall cells, n :: check(cells, n) == ValidateRow(cells, n, headers, catalog)
  {
    (cells, n) => ValidateRow(cells, n, headers, catalog)
  }

  /** A grid validated against its first line. */
  function ValidateGrid(parsed: seq<seq<string>>, catalog: seq<string>): (r: FileResult)
    ensures |parsed| < 2 ==> r == FatalResult
    ensures |parsed| >= 2 ==> r.headers == parsed[0] && |r.rows| == |parsed| - 1
  {
    if |parsed| < 2 then FatalResult else CheckGrid(parsed, RowValidator(parsed[0], catalog))
  }

  /** Parsed row `k` is what `validateRow` made of grid line `k + 1`,
      numbered `k + 2`. */
  lemma {:induction false} GridRows(parsed: seq<seq<string>>, catalog: seq<string>)
    requires |parsed| >= 2
    ensures forall k :: 0 <= k < |parsed| - 1 ==>
      ValidateGrid(parsed, catalog).rows[k] == ValidateRow(parsed[k + 1], k + 2, parsed[0], catalog).parsedRow
  {
    CheckGridRows(parsed, RowValidator(parsed[0], catalog));
  }

  /** The diagnostics numbered `n`, for each data line number `n`, are
      exactly what `validateRow` raised for grid line `n - 1`. */
  lemma {:induction false} GridLineErrors(parsed: seq<seq<string>>, catalog: seq<string>)
    requires |parsed| >= 2
    ensures forall n :: 2 <= n <= |parsed| ==>
      ErrorsOfRow(ValidateGrid(parsed, catalog).errors, n) == ValidateRow(parsed[n - 1], n, parsed[0], catalog).errors
  {
    CheckGridLineErrors(parsed, RowValidator(parsed[0], catalog));
  }

  /** The diagnostics of a grid are numbered within the data lines and come
      in line order. */
  lemma {:induction false} GridErrors(parsed: seq<seq<string>>, catalog: seq<string>)
    requires |parsed| >= 2
    ensures var r := ValidateGrid(parsed, catalog);
      && (forall e :: e in r.errors ==> 2 <= e.row <= |parsed|)
      && SortedByRow(r.errors)
  {
    CheckGridErrors(parsed, RowValidator(parsed[0], catalog));
  }

  /** A row is valid exactly when no diagnostic carries its line number. */
  lemma {:induction false} GridValidIffNoDiagnostic(parsed: seq<seq<string>>, catalog: seq<string>)
    ensures var r := ValidateGrid(parsed, catalog);
      forall k :: 0 <= k < |r.rows| ==> (r.rows[k].isValid <==> forall e :: e in r.errors ==> e.row != k + 2)
  {
    if |parsed| >= 2 {
      CheckGridValid(parsed, RowValidator(parsed[0], catalog));
    }
  }

  /** No diagnostic at all exactly when there are rows and all are valid. */
  lemma {:induction false} GridNoErrorsIffAllValid(parsed: seq<seq<string>>, catalog: seq<string>)
    ensures var r := ValidateGrid(parsed, catalog);
      r.errors == [] <==> (|r.rows| > 0 && forall k :: 0 <= k < |r.rows| ==> r.rows[k].isValid)
  {
    if |parsed| >= 2 {
      CheckGridNoErrors(parsed, RowValidator(parsed[0], catalog));
    }
  }

  /** `parseAndValidateFile` over the catalog `catalog`. A file whose trimmed
      text has no line feed (including the empty file) gets exactly the fatal
      answer, and no other file does. */
  function ParseAndValidateFile(content: string, catalog: seq<string>): (r: FileResult)
    ensures '\n' !in Trim(content) <==> r == FatalResult
  {
    RowCount(content);
    ValidateGrid(ParseCSV(content), catalog)
  }

  /** A file with a data line: the headers are the first tokenized line,
      there is one parsed row per later line, and parsed row `k` is what
      `validateRow` made of tokenized line `k + 1` as file line `k + 2`. */
  lemma {:induction false} FileShape(content: string, catalog: seq<string>)
    requires '\n' in Trim(content)
    ensures var r := ParseAndValidateFile(content, catalog);
      var grid := ParseCSV(content);
      && r.headers == grid[0]
      && |r.rows| == |grid| - 1 == multiset(Trim(content))['\n']
      && forall k :: 0 <= k < |grid| - 1 ==>
           r.rows[k] == ValidateRow(grid[k + 1], k + 2, grid[0], catalog).parsedRow
  {
    RowCount(content);
    GridRows(ParseCSV(content), catalog);
  }

  /** A file with a data line: every diagnostic carries a data line number
      (2 to the last line), the list is in line order, and the diagnostics
      numbered `n` are exactly what `validateRow` raised for tokenized line
      `n - 1` as file line `n`. */
  lemma {:induction false} FileErrors(content: string, catalog: seq<string>)
    requires '\n' in Trim(content)
    ensures var r := ParseAndValidateFile(content, catalog);
      var grid := ParseCSV(content);
      && (forall e :: e in r.errors ==> 2 <= e.row <= |grid|)
      && SortedByRow(r.errors)
      && forall n :: 2 <= n <= |grid| ==>
           ErrorsOfRow(r.errors, n) == ValidateRow(grid[n - 1], n, grid[0], catalog).errors
  {
    RowCount(content);
    GridErrors(ParseCSV(content), catalog);
    GridLineErrors(ParseCSV(content), catalog);
  }

  /** A parsed row is valid exactly when no diagnostic carries its line
      number. */
  lemma {:induction false} ValidIffNoDiagnostic(content: string, catalog: seq<string>)
    ensures var r := ParseAndValidateFile(content, catalog);
      forall i :: 0 <= i < |r.rows| ==> (r.rows[i].isValid <==> forall e :: e in r.errors ==> e.row != i + 2)
  {
    GridValidIffNoDiagnostic(ParseCSV(content), catalog);
  }

  /** The list of diagnostics is empty exactly when the file has data rows
      and every one of them is valid (what the upload page gates on). */
  lemma {:induction false} NoErrorsIffAllValid(content: string, catalog: seq<string>)
    ensures var r := ParseAndValidateFile(content, catalog);
      r.errors == [] <==> (|r.rows| > 0 && forall i :: 0 <= i < |r.rows| ==> r.rows[i].isValid)
  {
    GridNoErrorsIffAllValid(ParseCSV(content), catalog);
  }

  /** A trailing line feed (or any trailing whitespace) changes nothing. */
  lemma {:induction false} TrailingNewlineIgnored(content: string, catalog: seq<string>, c: char)
    requires IsWhitespace(c)
    ensures ParseAndValidateFile(content + [c], catalog) == ParseAndValidateFile(content, catalog)
  {
    TrailingWhitespaceIgnored(content, c);
  }
}

=== FILE: text.dfy ===
/** The string operations of the JavaScript runtime that the CSV parser leans
    on: `trim`, `toLowerCase`, `includes`, `split` on a single character, and
    the `join` that undoes `split`. Strings are sequences of Unicode scalar
    values. */
module Text {

  /** The code points ECMAScript's `String.prototype.trim` removes: the
      WhiteSpace class (tab, vertical tab, form feed, ZWNBSP and every space
      separator) and the LineTerminator class (LF, CR, LS, PS). */
  predicate IsWhitespace(c: char)
  {
    || c == '\t' || c == '\n' || c == '\U{000B}' || c == '\U{000C}' || c == '\r'
    || c == ' ' || c == '\U{00A0}' || c == '\U{1680}'
    || ('\U{2000}' <= c <= '\U{200A}')
    || c == '\U{2028}' || c == '\U{2029}' || c == '\U{202F}' || c == '\U{205F}'
    || c == '\U{3000}' || c == '\U{FEFF}'
  }

  predicate AllWhitespace(s: string)
  {
    forall i :: 0 <= i < |s| ==> IsWhitespace(s[i])
  }

  /** Neither end of `s` is whitespace. */
  predicate IsTrimmed(s: string)
  {
    |s| == 0 || (!IsWhitespace(s[0]) && !IsWhitespace(s[|s| - 1]))
  }

  /** The number of whitespace characters at the front of `s`. */
  function LeadingSpace(s: string): (n: nat)
    ensures n <= |s|
    decreases |s|
  {
    if |s| > 0 && IsWhitespace(s[0]) then 1 + LeadingSpace(s[1..]) else 0
  }

  /** The characters `LeadingSpace` counts are whitespace and the one after
      them is not. */
  lemma {:induction false} LeadingSpaceSpan(s: string)
    ensures forall i :: 0 <= i < LeadingSpace(s) ==> IsWhitespace(s[i])
    ensures LeadingSpace(s) == |s| || !IsWhitespace(s[LeadingSpace(s)])
    decreases |s|
  {
    if |s| > 0 && IsWhitespace(s[0]) {
      LeadingSpaceSpan(s[1..]);
      assert forall i :: 1 <= i <= LeadingSpace(s[1..]) ==> s[i] == s[1..][i - 1];
    }
  }

  /** `s` without its leading whitespace (also what `parseInt` and
      `parseFloat` skip before reading a number). */
  function TrimStart(s: string): string
  {
    s[LeadingSpace(s)..]
  }

  /** `TrimStart` drops a run of whitespace, and what it keeps does not
      start with whitespace. */
  lemma {:induction false} TrimStartSpan(s: string)
    ensures s == s[..|s| - |TrimStart(s)|] + TrimStart(s)
    ensures AllWhitespace(s[..|s| - |TrimStart(s)|])
    ensures |TrimStart(s)| == 0 || !IsWhitespace(TrimStart(s)[0])
  {
    LeadingSpaceSpan(s);
    var k := LeadingSpace(s);
    assert s == s[..k] + s[k..];
    assert forall i :: 0 <= i < k ==> s[..k][i] == s[i];
  }

  /** `s` without its trailing whitespace. */
  function TrimEnd(s: string): (t: string)
    ensures |t| <= |s| && t == s[..|t|]
    ensures AllWhitespace(s[|t|..])
    ensures |t| == 0 || !IsWhitespace(t[|t| - 1])
    decreases |s|
  {
    if |s| > 0 && IsWhitespace(s[|s| - 1]) then
      var t := TrimEnd(s[..|s| - 1]);
      assert s[..|s| - 1][..|t|] == s[..|t|];
      assert s[|t|..][..|s| - 1 - |t|] == s[..|s| - 1][|t|..];
      AllWhitespaceSnoc(s[|t|..]);
      t
    else
      s
  }

  lemma {:induction false} AllWhitespaceCons(s: string)
    requires |s| > 0
    ensures AllWhitespace(s) <==> IsWhitespace(s[0]) && AllWhitespace(s[1..])
  {
    assert forall i :: 0 < i < |s| ==> s[i] == s[1..][i - 1];
  }

  lemma {:induction false} AllWhitespaceSnoc(s: string)
    requires |s| > 0
    ensures AllWhitespace(s) <==> AllWhitespace(s[..|s| - 1]) && IsWhitespace(s[|s| - 1])
  {
    assert forall i :: 0 <= i < |s| - 1 ==> s[i] == s[..|s| - 1][i];
  }

  lemma {:induction false} AllWhitespaceConcat(a: string, b: string)
    ensures AllWhitespace(a + b) <==> AllWhitespace(a) && AllWhitespace(b)
  {
    assert forall i :: 0 <= i < |a| ==> (a + b)[i] == a[i];
    assert forall i :: 0 <= i < |b| ==> (a + b)[|a| + i] == b[i];
  }

  /** `String.prototype.trim`. The result is trimmed, is made of characters
      of `s`, is empty exactly when `s` is all whitespace, and leaves an
      already trimmed string alone. */
  function Trim(s: string): (t: string)
    ensures IsTrimmed(t)
    ensures forall c :: c in t ==> c in s
    ensures AllWhitespace(s) <==> t == ""
    ensures IsTrimmed(s) ==> t == s
  {
    var u := TrimStart(s);
    var t := TrimEnd(u);
    TrimInside(s, u, t);
    TrimEmpty(s, u, t);
    TrimOfTrimmed(s, u, t);
    t
  }

  lemma {:induction false} TrimInside(s: string, u: string, t: string)
    requires u == TrimStart(s) && t == TrimEnd(u)
    ensures IsTrimmed(t)
    ensures forall c :: c in t ==> c in s
  {
    TrimStartSpan(s);
    assert |t| > 0 ==> t[0] == u[0];
    assert forall c :: c in t ==> c in u;
  }

  lemma {:induction false} TrimEmpty(s: string, u: string, t: string)
    requires u == TrimStart(s) && t == TrimEnd(u)
    ensures AllWhitespace(s) <==> t == ""
  {
    var k := |s| - |u|;
    TrimStartSpan(s);
    AllWhitespaceConcat(s[..k], u);
    if t == "" {
      assert u[0..] == u;
    } else {
      assert u[0] == t[0];
      AllWhitespaceCons(u);
    }
  }

  lemma {:induction false} TrimOfTrimmed(s: string, u: string, t: string)
    requires u == TrimStart(s) && t == TrimEnd(u)
    ensures IsTrimmed(s) ==> t == s
  {
    if IsTrimmed(s) && |s| > 0 {
      assert u == s;
    }
  }

  /** `trim` keeps one contiguous piece of its input: the whitespace
      `LeadingSpace` counts comes before it and only whitespace after it. */
  lemma {:induction false} TrimSpan(s: string)
    ensures var k := LeadingSpace(s); var t := Trim(s);
      && k + |t| <= |s|
      && t == s[k..k + |t|]
      && AllWhitespace(s[..k])
      && AllWhitespace(s[k + |t|..])
  {
    var k := LeadingSpace(s);
    var u := TrimStart(s);
    var t := TrimEnd(u);
    LeadingSpaceSpan(s);
    assert forall i :: 0 <= i < k ==> s[..k][i] == s[i];
    assert s[k..k + |t|] == u[..|t|];
    assert s[k + |t|..] == u[|t|..];
  }

  /** Whitespace, then trimmed text, then whitespace: `trim` gives back
      exactly the text in the middle. With `TrimSpan`, which splits every
      string this way, this fixes `trim`'s result. */
  lemma {:induction false} TrimPadded(a: string, c: string, b: string)
    requires AllWhitespace(a) && AllWhitespace(b) && IsTrimmed(c)
    ensures Trim(a + c + b) == c
  {
    if c == "" {
      assert a + c + b == a + b;
      AllWhitespaceConcat(a, b);
    } else {
      assert a + c + b == a + (c + b);
      TrimStartAppend(a, c + b);
      assert (c + b)[0] == c[0];
      assert LeadingSpace(c + b) == 0;
      assert TrimStart(c + b) == c + b;
      TrimEndPadded(c, b);
    }
  }

  /** Trailing whitespace after text that does not end in whitespace is
      exactly what `TrimEnd` removes. */
  lemma {:induction false} TrimEndPadded(c: string, b: string)
    requires |c| > 0 && !IsWhitespace(c[|c| - 1]) && AllWhitespace(b)
    ensures TrimEnd(c + b) == c
  {
    var s := c + b;
    var t := TrimEnd(s);
    assert forall i :: |t| <= i < |s| ==> s[i] == s[|t|..][i - |t|];
    assert s[|c| - 1] == c[|c| - 1];
    assert |t| == |c|;
    assert s[..|c|] == c;
  }

  /** ASCII lower-casing of one character; every other character is kept. */
  function LowerChar(c: char): char
  {
    if 'A' <= c <= 'Z' then (c as int + 32) as char else c
  }

  /** `String.prototype.toLowerCase`, restricted to ASCII letters. */
  function ToLower(s: string): (t: string)
    ensures |t| == |s|
    ensures forall i :: 0 <= i < |s| ==> t[i] == LowerChar(s[i])
  {
    seq(|s|, i requires 0 <= i < |s| => LowerChar(s[i]))
  }

  predicate IsPrefix(p: string, s: string)
  {
    |p| <= |s| && s[..|p|] == p
  }

  /** `sub` occurs in `s` starting at index `k`. */
  predicate OccursAt(sub: string, s: string, k: int)
  {
    0 <= k && k + |sub| <= |s| && s[k..k + |sub|] == sub
  }

  /** `String.prototype.includes`: `sub` occurs somewhere in `s`. */
  predicate Includes(s: string, sub: string)
  {
    exists k :: 0 <= k <= |s| - |sub| && OccursAt(sub, s, k)
  }

  /** The left-to-right search behind `includes`: try `sub` at the front,
      then search the rest. It answers exactly `Includes`. */
  function Scan(s: string, sub: string): (b: bool)
    ensures b <==> Includes(s, sub)
    decreases |s|
  {
    if IsPrefix(sub, s) then
      assert OccursAt(sub, s, 0);
      true
    else if |s| == 0 then
      false
    else
      var b := Scan(s[1..], sub);
      IncludesTail(s, sub);
      b
  }

  /** When `sub` is not at the front of `s`, it occurs in `s` exactly when
      it occurs in the rest of `s`. */
  lemma {:induction false} IncludesTail(s: string, sub: string)
    requires |s| > 0 && !IsPrefix(sub, s)
    ensures Includes(s, sub) <==> Includes(s[1..], sub)
  {
    if Includes(s[1..], sub) {
      var k :| 0 <= k <= |s[1..]| - |sub| && OccursAt(sub, s[1..], k);
      assert s[1..][k..k + |sub|] == s[k + 1..k + 1 + |sub|];
      assert OccursAt(sub, s, k + 1);
    }
    if Includes(s, sub) {
      var k :| 0 <= k <= |s| - |sub| && OccursAt(sub, s, k);
      assert k != 0;
      assert s[1..][k - 1..k - 1 + |sub|] == s[k..k + |sub|];
      assert OccursAt(sub, s[1..], k - 1);
    }
  }

  /** The inverse of `Split`: the parts with `sep` between neighbours. */
  function Join(parts: seq<string>, sep: char): string
    requires |parts| >= 1
    decreases |parts|
  {
    if |parts| == 1 then parts[0] else parts[0] + [sep] + Join(parts[1..], sep)
  }

  /** `String.prototype.split` with a one-character separator: never empty,
      and no part contains the separator. */
  function Split(s: string, sep: char): (parts: seq<string>)
    ensures |parts| >= 1
    ensures forall p :: p in parts ==> sep !in p
    decreases |s|
  {
    if |s| == 0 then [""]
    else
      var rest := Split(s[1..], sep);
      if s[0] == sep then [""] + rest else [[s[0]] + rest[0]] + rest[1..]
  }

  /** Joining the parts of a split gives back the text. */
  lemma {:induction false} JoinSplit(s: string, sep: char)
    ensures Join(Split(s, sep), sep) == s
    decreases |s|
  {
    if |s| > 0 {
      var rest := Split(s[1..], sep);
      JoinSplit(s[1..], sep);
      if s[0] == sep {
        assert Split(s, sep) == [""] + rest;
        assert ([""] + rest)[1..] == rest;
      } else {
        var parts := [[s[0]] + rest[0]] + rest[1..];
        assert Split(s, sep) == parts;
        if |rest| > 1 {
          assert parts[1..] == rest[1..];
          assert Join(rest, sep) == rest[0] + [sep] + Join(rest[1..], sep);
        }
        assert s == [s[0]] + s[1..];
      }
    }
  }

  /** Splitting a text whose first `sep`-free stretch is `p` puts `p` at the
      front of the first part. */
  lemma {:induction false} SplitPrefix(p: string, tail: string, sep: char)
    requires sep !in p
    ensures Split(p + tail, sep) == [p + Split(tail, sep)[0]] + Split(tail, sep)[1..]
    decreases |p|
  {
    if |p| > 0 {
      assert (p + tail)[1..] == p[1..] + tail;
      SplitPrefix(p[1..], tail, sep);
      assert [p[0]] + (p[1..] + Split(tail, sep)[0]) == p + Split(tail, sep)[0];
    } else {
      var parts := Split(tail, sep);
      assert p + tail == tail;
      assert parts == [parts[0]] + parts[1..];
      assert p + parts[0] == parts[0];
    }
  }

  /** Splitting joined parts gives back the parts, when none holds `sep`. */
  lemma {:induction false} SplitJoin(parts: seq<string>, sep: char)
    requires |parts| >= 1
    requires forall p :: p in parts ==> sep !in p
    ensures Split(Join(parts, sep), sep) == parts
    decreases |parts|
  {
    if |parts| == 1 {
      SplitPrefix(parts[0], "", sep);
      assert parts[0] + "" == parts[0];
    } else {
      var rest := Join(parts[1..], sep);
      SplitJoin(parts[1..], sep);
      assert Join(parts, sep) == parts[0] + ([sep] + rest);
      SplitPrefix(parts[0], [sep] + rest, sep);
      assert ([sep] + rest)[1..] == rest;
      assert Split([sep] + rest, sep) == [""] + parts[1..];
      assert parts[0] + "" == parts[0];
      assert parts == [parts[0]] + parts[1..];
    }
  }

  /** `split` yields one more part than there are separators. */
  lemma {:induction false} SplitCount(s: string, sep: char)
    ensures |Split(s, sep)| == 1 + multiset(s)[sep]
    decreases |s|
  {
    if |s| > 0 {
      SplitCount(s[1..], sep);
      assert s == [s[0]] + s[1..];
      assert multiset(s) == multiset{s[0]} + multiset(s[1..]);
    }
  }

  /** The first part of a join is a prefix of it and the last part a suffix. */
  lemma {:induction false} JoinEnds(parts: seq<string>, sep: char)
    requires |parts| >= 1
    ensures IsPrefix(parts[0], Join(parts, sep))
    ensures |parts[|parts| - 1]| <= |Join(parts, sep)|
    ensures Join(parts, sep)[|Join(parts, sep)| - |parts[|parts| - 1]|..] == parts[|parts| - 1]
    decreases |parts|
  {
    if |parts| > 1 {
      JoinEnds(parts[1..], sep);
    }
  }

  /** A character that is not the separator and occurs in no part does not
      occur in the join. */
  lemma {:induction false} JoinAvoids(parts: seq<string>, sep: char, x: char)
    requires |parts| >= 1
    requires x != sep
    requires forall i :: 0 <= i < |parts| ==> x !in parts[i]
    ensures x !in Join(parts, sep)
    decreases |parts|
  {
    if |parts| > 1 {
      JoinAvoids(parts[1..], sep, x);
    }
  }

  /** Whitespace appended to a text does not survive `trim`. */
  lemma {:induction false} TrimAppendWhitespace(s: string, c: char)
    requires IsWhitespace(c)
    ensures Trim(s + [c]) == Trim(s)
  {
    TrimStartAppend(s, [c]);
    if AllWhitespace(s) {
      assert TrimStart([c]) == "";
    } else {
      var u := TrimStart(s);
      assert (u + [c])[..|u|] == u;
    }
  }

  lemma {:induction false} TrimStartAppend(s: string, t: string)
    ensures AllWhitespace(s) ==> TrimStart(s + t) == TrimStart(t)
    ensures !AllWhitespace(s) ==> TrimStart(s + t) == TrimStart(s) + t
    decreases |s|
  {
    if |s| == 0 {
      assert s + t == t;
    } else {
      assert (s + t)[0] == s[0];
      AllWhitespaceCons(s);
      if IsWhitespace(s[0]) {
        assert (s + t)[1..] == s[1..] + t;
        TrimStartAppend(s[1..], t);
      }
    }
  }

  /** Whitespace in front of `c` makes no difference to `trim`. */
  lemma {:induction false} TrimPrependWhitespace(w: string, c: string)
    requires AllWhitespace(w)
    ensures Trim(w + c) == Trim(c)
  {
    TrimStartAppend(w, c);
  }

  /** Whitespace after `c` makes no difference to `trim`. */
  lemma {:induction false} TrimAppendSpace(c: string, w: string)
    requires AllWhitespace(w)
    ensures Trim(c + w) == Trim(c)
    decreases |w|
  {
    if |w| == 0 {
      assert c + w == c;
    } else {
      var w' := w[..|w| - 1];
      AllWhitespaceSnoc(w);
      assert c + w == (c + w') + [w[|w| - 1]];
      TrimAppendWhitespace(c + w', w[|w| - 1]);
      TrimAppendSpace(c, w');
    }
  }

  /** Joining one more part at the end adds a separator and the part. */
  lemma {:induction false} JoinSnoc(parts: seq<string>, y: string, sep: char)
    requires |parts| >= 1
    ensures Join(parts + [y], sep) == Join(parts, sep) + [sep] + y
    decreases |parts|
  {
    var s := parts + [y];
    assert s[0] == parts[0];
    if |parts| == 1 {
      assert s[1..] == [y];
    } else {
      assert s[1..] == parts[1..] + [y];
      JoinSnoc(parts[1..], y, sep);
    }
  }

  /** The join of `x`, the parts `mid` and `y` is `x`, then text that
      depends on `mid` only, then `y`. */
  lemma {:induction false} JoinEdges(x: string, mid: seq<string>, y: string, sep: char)
    ensures Join([x] + mid + [y], sep)
            == x + ([sep] + (if |mid| == 0 then "" else Join(mid, sep) + [sep])) + y
  {
    var s := [x] + mid + [y];
    assert s[0] == x && s[1..] == mid + [y];
    if |mid| == 0 {
      assert mid + [y] == [y];
    } else {
      JoinSnoc(mid, y, sep);
    }
  }

  /** Trimming lines joined by line feeds only trims the start of the first
      line and the end of the last, when neither is blank. */
  lemma {:induction false} TrimJoinedLines(lines: seq<string>, sep: char)
    requires |lines| >= 2
    requires !AllWhitespace(lines[0]) && !AllWhitespace(lines[|lines| - 1])
    ensures var n := |lines|;
      Trim(Join(lines, sep))
      == Join([TrimStart(lines[0])] + lines[1..n - 1] + [TrimEnd(lines[n - 1])], sep)
  {
    var n := |lines|;
    var first, mid, last := lines[0], lines[1..n - 1], lines[n - 1];
    var x, y := TrimStart(first), TrimEnd(last);
    var gap := [sep] + (if |mid| == 0 then "" else Join(mid, sep) + [sep]);
    assert lines == [first] + mid + [last];
    JoinEdges(first, mid, last, sep);
    JoinEdges(x, mid, y, sep);
    var a := NonBlankStart(first);
    var b := NonBlankEnd(last);
    TrimmedBetween(x, gap, y);
    Regroup(a, x, gap, y, b);
    TrimPadded(a, x + gap + y, b);
  }

  /** Text between a first character and a last character that are not
      whitespace is trimmed. */
  lemma {:induction false} TrimmedBetween(x: string, g: string, y: string)
    requires x != "" && !IsWhitespace(x[0])
    requires y != "" && !IsWhitespace(y[|y| - 1])
    ensures IsTrimmed(x + g + y)
  {
    var c := x + g + y;
    assert c[0] == x[0] && c[|c| - 1] == y[|y| - 1];
  }

  lemma Regroup(a: string, x: string, g: string, y: string, b: string)
    ensures (a + x) + g + (y + b) == a + (x + g + y) + b
  {
  }

  /** A string that is not blank is its leading whitespace `a` followed by
      a non-empty `TrimStart` that starts with a non-whitespace character. */
  lemma {:induction false} NonBlankStart(s: string) returns (a: string)
    requires !AllWhitespace(s)
    ensures s == a + TrimStart(s) && AllWhitespace(a)
    ensures TrimStart(s) != "" && !IsWhitespace(TrimStart(s)[0])
  {
    TrimStartSpan(s);
    a := s[..|s| - |TrimStart(s)|];
    AllWhitespaceConcat(a, TrimStart(s));
  }

  /** A string that is not blank is a non-empty `TrimEnd` that ends with a
      non-whitespace character, followed by its trailing whitespace `b`. */
  lemma {:induction false} NonBlankEnd(s: string) returns (b: string)
    requires !AllWhitespace(s)
    ensures s == TrimEnd(s) + b && AllWhitespace(b)
    ensures TrimEnd(s) != "" && !IsWhitespace(TrimEnd(s)[|TrimEnd(s)| - 1])
  {
    var y := TrimEnd(s);
    b := s[|y|..];
    assert s == y + b;
    AllWhitespaceConcat(y, b);
  }
}

=== FILE: validation.dfy ===
/** `validateRow` (src/utils/fileParser.ts): find the year, state and value
    columns from the header, check one data row's cells against the domain
    rules, and report a typed row plus one diagnostic per problem. */
module Validation {
  import opened Wrappers
  import opened Text
  import opened Numbers
  import Catalog

  const MinYear := 1947
  const MaxYear := 2030

  /** The fixed diagnostic messages. `NoDataRows` is the answer for a file
      without a header line and a data line. */
  datatype Message =
    | InvalidYear | YearOutOfRange | MissingYear
    | InvalidState | MissingState
    | NonNumeric | NegativeValue | MissingValue
    | NoDataRows

  /** The text each message carries. */
  function MessageText(m: Message): string
  {
    match m
    case InvalidYear => "Invalid year format"
    case YearOutOfRange => "Year must be between 1947 and 2030"
    case MissingYear => "Missing year value"
    case InvalidState => "Invalid state/territory name"
    case MissingState => "Missing state value"
    case NonNumeric => "Non-numeric value where numeric expected"
    case NegativeValue => "Value cannot be negative"
    case MissingValue => "Missing value"
    case NoDataRows => "File must have headers and at least one data row"
  }

  /** One problem found in the file: its 1-based line number, the column it
      concerns, a fixed message, and the offending text. */
  datatype ValidationError = ValidationError(row: int, column: string, message: Message, value: string)

  /** The typed reading of one data row. `year` and `value` are `None` and
      `state` is empty when the cell was not accepted or not applicable. */
  datatype ParsedRow = ParsedRow(
    year: Option<int>,
    state: string,
    value: Option<Number>,
    isValid: bool,
    errors: seq<Message>)

  datatype RowResult = RowResult(parsedRow: ParsedRow, errors: seq<ValidationError>)

  /** The three semantic columns the validator recognises. */
  datatype Role = Year | State | Value

  /** A header serves a role when its lower-cased text contains the role's
      keyword: "year", "state", or "value" or "rate". */
  predicate HeaderMatches(role: Role, header: string)
  {
    var h := ToLower(header);
    match role
    case Year => Includes(h, "year")
    case State => Includes(h, "state")
    case Value => Includes(h, "value") || Includes(h, "rate")
  }

  /** `findIndex` from position `k` on. */
  function FindRoleFrom(headers: seq<string>, role: Role, k: nat): (idx: Option<nat>)
    requires k <= |headers|
    ensures idx.Some? ==> k <= idx.value < |headers| && HeaderMatches(role, headers[idx.value])
    ensures idx.Some? ==> forall j :: k <= j < idx.value ==> !HeaderMatches(role, headers[j])
    ensures idx.None? ==> forall j :: k <= j < |headers| ==> !HeaderMatches(role, headers[j])
    decreases |headers| - k
  {
    if k == |headers| then None
    else if HeaderMatches(role, headers[k]) then Some(k)
    else FindRoleFrom(headers, role, k + 1)
  }

  /** The column of a role: the first header that serves it, or `None`
      when no header does. */
  function FindRole(headers: seq<string>, role: Role): (idx: Option<nat>)
    ensures idx.Some? ==> idx.value < |headers| && HeaderMatches(role, headers[idx.value])
    ensures idx.Some? ==> forall j :: 0 <= j < idx.value ==> !HeaderMatches(role, headers[j])
    ensures idx.None? ==> forall j :: 0 <= j < |headers| ==> !HeaderMatches(role, headers[j])
  {
    FindRoleFrom(headers, role, 0)
  }

  /** The cell at `i` counts as present when it exists and is not empty (the
      JavaScript truthiness of `row[i]`). */
  predicate HasCell(row: seq<string>, i: nat)
  {
    i < |row| && row[i] != ""
  }

  /** The column name a "missing" diagnostic carries. */
  function FallbackColumn(role: Role): string
  {
    match role
    case Year => "Year"
    case State => "State"
    case Value => "Value"
  }

  function MissingMessage(role: Role): Message
  {
    match role
    case Year => MissingYear
    case State => MissingState
    case Value => MissingValue
  }

  /** The role a diagnostic belongs to, read back from its message. */
  function MessageRole(message: Message): Option<Role>
  {
    match message
    case InvalidYear | YearOutOfRange | MissingYear => Some(Year)
    case InvalidState | MissingState => Some(State)
    case NonNumeric | NegativeValue | MissingValue => Some(Value)
    case NoDataRows => None
  }

  /** The order in which the roles are checked. */
  function Rank(role: Role): nat
  {
    match role
    case Year => 0
    case State => 1
    case Value => 2
  }

  function ErrorRank(e: ValidationError): nat
  {
    match MessageRole(e.message)
    case Some(role) => Rank(role)
    case None => 3
  }

  /** Every diagnostic belongs to a role, and the roles come in check order
      (year, state, value) with none repeated. */
  predicate RolesInOrder(errors: seq<ValidationError>)
  {
    && (forall i :: 0 <= i < |errors| ==> MessageRole(errors[i].message).Some?)
    && (forall i, j :: 0 <= i < j < |errors| ==> ErrorRank(errors[i]) < ErrorRank(errors[j]))
  }

  /** The diagnostics of one role, in order. */
  function RoleErrors(errors: seq<ValidationError>, role: Role): (r: seq<ValidationError>)
    ensures |r| <= |errors|
    ensures forall e :: e in r ==> e in errors && MessageRole(e.message) == Some(role)
  {
    if |errors| == 0 then []
    else if MessageRole(errors[0].message) == Some(role) then [errors[0]] + RoleErrors(errors[1..], role)
    else RoleErrors(errors[1..], role)
  }

  function Messages(errors: seq<ValidationError>): (m: seq<Message>)
    ensures |m| == |errors|
    ensures forall i :: 0 <= i < |errors| ==> m[i] == errors[i].message
  {
    seq(|errors|, i requires 0 <= i < |errors| => errors[i].message)
  }

  /** Case-insensitive membership of `name` in the catalog (`some` with
      `toLowerCase` on both sides). */
  predicate InCatalog(catalog: seq<string>, name: string)
  {
    exists i :: 0 <= i < |catalog| && ToLower(catalog[i]) == ToLower(name)
  }

  /** The outcome of one role's check: the field it sets and the diagnostic
      it raises, if any. */
  datatype Checked<T> = Checked(field: T, error: Option<ValidationError>)

  function CheckYear(row: seq<string>, rowIndex: int, headers: seq<string>): (c: Checked<Option<int>>)
    ensures c.field.Some? ==> MinYear <= c.field.value <= MaxYear && c.error.None?
    ensures FindRole(headers, Year).Some? ==> (c.field.Some? <==> c.error.None?)
    ensures c.error.Some? ==> MessageRole(c.error.value.message) == Some(Year) && c.error.value.row == rowIndex
  {
    match FindRole(headers, Year)
    case None => Checked(None, None)
    case Some(i) =>
      if HasCell(row, i) then
        match ParseInt(row[i])
        case None => Checked(None, Some(ValidationError(rowIndex, headers[i], InvalidYear, row[i])))
        case Some(y) =>
          if y < MinYear || y > MaxYear then
            Checked(None, Some(ValidationError(rowIndex, headers[i], YearOutOfRange, row[i])))
          else Checked(Some(y), None)
      else Checked(None, Some(ValidationError(rowIndex, FallbackColumn(Year), MissingMessage(Year), "")))
  }

  function CheckState(row: seq<string>, rowIndex: int, headers: seq<string>, catalog: seq<string>): (c: Checked<string>)
    ensures c.field != "" ==> InCatalog(catalog, c.field) && c.error.None?
    ensures c.error.Some? ==> MessageRole(c.error.value.message) == Some(State) && c.error.value.row == rowIndex
  {
    match FindRole(headers, State)
    case None => Checked("", None)
    case Some(i) =>
      if HasCell(row, i) then
        var state := Trim(row[i]);
        if !InCatalog(catalog, state) then
          Checked("", Some(ValidationError(rowIndex, headers[i], InvalidState, state)))
        else Checked(state, None)
      else Checked("", Some(ValidationError(rowIndex, FallbackColumn(State), MissingMessage(State), "")))
  }

  function CheckValue(row: seq<string>, rowIndex: int, headers: seq<string>): (c: Checked<Option<Number>>)
    ensures c.field.Some? ==> !IsNegative(c.field.value) && c.error.None?
    ensures FindRole(headers, Value).Some? ==> (c.field.Some? <==> c.error.None?)
    ensures c.error.Some? ==> MessageRole(c.error.value.message) == Some(Value) && c.error.value.row == rowIndex
  {
    match FindRole(headers, Value)
    case None => Checked(None, None)
    case Some(i) =>
      if HasCell(row, i) then
        match ParseFloat(row[i])
        case None => Checked(None, Some(ValidationError(rowIndex, headers[i], NonNumeric, row[i])))
        case Some(v) =>
          if IsNegative(v) then
            Checked(None, Some(ValidationError(rowIndex, headers[i], NegativeValue, row[i])))
          else Checked(Some(v), None)
      else Checked(None, Some(ValidationError(rowIndex, FallbackColumn(Value), MissingMessage(Value), "")))
  }

  /** The diagnostic a role's check raises for this row, if any. */
  function RoleError(row: seq<string>, rowIndex: int, headers: seq<string>, catalog: seq<string>, role: Role): Option<ValidationError>
  {
    match role
    case Year => CheckYear(row, rowIndex, headers).error
    case State => CheckState(row, rowIndex, headers, catalog).error
    case Value => CheckValue(row, rowIndex, headers).error
  }

  /** Diagnostics raised by the three checks, concatenated in check order,
      keep their roles in order. */
  lemma {:induction false} ChecksInOrder(y: Option<ValidationError>, s: Option<ValidationError>, v: Option<ValidationError>)
    requires y.Some? ==> MessageRole(y.value.message) == Some(Year)
    requires s.Some? ==> MessageRole(s.value.message) == Some(State)
    requires v.Some? ==> MessageRole(v.value.message) == Some(Value)
    ensures RolesInOrder(ToSeq(y) + ToSeq(s) + ToSeq(v))
  {
    var errors := ToSeq(y) + ToSeq(s) + ToSeq(v);
    forall i | 0 <= i < |errors|
      ensures MessageRole(errors[i].message).Some?
      ensures ErrorRank(errors[i]) == Rank(MessageRole(errors[i].message).value)
    {
      assert errors[i] in errors;
    }
    forall i, j | 0 <= i < j < |errors|
      ensures ErrorRank(errors[i]) < ErrorRank(errors[j])
    {
      if y.Some? && s.Some? && v.Some? {
        assert errors == [y.value, s.value, v.value];
      } else if y.Some? && s.Some? {
        assert errors == [y.value, s.value];
      } else if y.Some? && v.Some? {
        assert errors == [y.value, v.value];
      } else if s.Some? && v.Some? {
        assert errors == [s.value, v.value];
      }
    }
  }

  /** Diagnostics raised by the three checks for line `rowIndex` all carry
      it, and there are at most three. */
  lemma {:induction false} ChecksNumbered(y: Option<ValidationError>, s: Option<ValidationError>, v: Option<ValidationError>, rowIndex: int)
    requires y.Some? ==> y.value.row == rowIndex
    requires s.Some? ==> s.value.row == rowIndex
    requires v.Some? ==> v.value.row == rowIndex
    ensures forall e :: e in ToSeq(y) + ToSeq(s) + ToSeq(v) ==> e.row == rowIndex
    ensures |ToSeq(y) + ToSeq(s) + ToSeq(v)| <= 3
  {
  }

  /** `validateRow`: the row is valid exactly when it raised no diagnostic;
      its message list mirrors the diagnostics; every diagnostic carries
      `rowIndex`; at most one per role, in year, state, value order; and an
      accepted field always satisfies its rule. */
  function ValidateRow(row: seq<string>, rowIndex: int, headers: seq<string>, catalog: seq<string>): (r: RowResult)
    ensures r.parsedRow.isValid <==> r.errors == []
    ensures r.parsedRow.errors == Messages(r.errors)
    ensures forall e :: e in r.errors ==> e.row == rowIndex
    ensures RolesInOrder(r.errors) && |r.errors| <= 3
    ensures r.parsedRow.year.Some? ==> MinYear <= r.parsedRow.year.value <= MaxYear
    ensures r.parsedRow.value.Some? ==> !IsNegative(r.parsedRow.value.value)
    ensures r.parsedRow.state != "" ==> InCatalog(catalog, r.parsedRow.state)
  {
    var y := CheckYear(row, rowIndex, headers);
    var s := CheckState(row, rowIndex, headers, catalog);
    var v := CheckValue(row, rowIndex, headers);
    var errors := ToSeq(y.error) + ToSeq(s.error) + ToSeq(v.error);
    ChecksInOrder(y.error, s.error, v.error);
    ChecksNumbered(y.error, s.error, v.error, rowIndex);
    RowResult(ParsedRow(y.field, s.field, v.field, |errors| == 0, Messages(errors)), errors)
  }

  // ----- what a row's diagnostics say about each role -----

  /** The field a role sets is at its default: no year, empty state, no
      value. */
  predicate FieldUnset(p: ParsedRow, role: Role)
  {
    match role
    case Year => p.year == None
    case State => p.state == ""
    case Value => p.value == None
  }

  lemma {:induction false} RoleErrorsAppend(a: seq<ValidationError>, b: seq<ValidationError>, role: Role)
    ensures RoleErrors(a + b, role) == RoleErrors(a, role) + RoleErrors(b, role)
    decreases |a|
  {
    if |a| == 0 {
      assert a + b == b;
    } else {
      assert (a + b)[0] == a[0];
      assert (a + b)[1..] == a[1..] + b;
      RoleErrorsAppend(a[1..], b, role);
    }
  }

  /** The diagnostics of a row that belong to `role` are exactly the one
      that role's check raised, if any. */
  lemma {:induction false} RoleErrorsOfRow(row: seq<string>, rowIndex: int, headers: seq<string>, catalog: seq<string>, role: Role)
    ensures RoleErrors(ValidateRow(row, rowIndex, headers, catalog).errors, role)
            == ToSeq(RoleError(row, rowIndex, headers, catalog, role))
  {
    var y := CheckYear(row, rowIndex, headers).error;
    var s := CheckState(row, rowIndex, headers, catalog).error;
    var v := CheckValue(row, rowIndex, headers).error;
    RoleErrorsAppend(ToSeq(y) + ToSeq(s), ToSeq(v), role);
    RoleErrorsAppend(ToSeq(y), ToSeq(s), role);
    RoleErrorsOfOption(y, role);
    RoleErrorsOfOption(s, role);
    RoleErrorsOfOption(v, role);
  }

  lemma {:induction false} RoleErrorsOfOption(o: Option<ValidationError>, role: Role)
    ensures RoleErrors(ToSeq(o), role)
            == if o.Some? && MessageRole(o.value.message) == Some(role) then [o.value] else []
  {
    if o.Some? {
      assert ToSeq(o)[1..] == [];
    }
  }

  /** A role no header serves is never checked: it raises no diagnostic and
      its field stays at the default, whatever the row holds. */
  lemma {:induction false} AbsentRoleSilent(row: seq<string>, rowIndex: int, headers: seq<string>, catalog: seq<string>, role: Role)
    requires FindRole(headers, role).None?
    ensures RoleErrors(ValidateRow(row, rowIndex, headers, catalog).errors, role) == []
    ensures FieldUnset(ValidateRow(row, rowIndex, headers, catalog).parsedRow, role)
  {
    RoleErrorsOfRow(row, rowIndex, headers, catalog, role);
  }

  /** A role whose column exists but whose cell is empty or beyond the end of
      the row raises exactly one diagnostic: the fallback column name, the
      role's "missing" message, and an empty value. */
  lemma {:induction false} MissingCellReported(row: seq<string>, rowIndex: int, headers: seq<string>, catalog: seq<string>, role: Role)
    requires FindRole(headers, role).Some?
    requires !HasCell(row, FindRole(headers, role).value)
    ensures RoleErrors(ValidateRow(row, rowIndex, headers, catalog).errors, role)
            == [ValidationError(rowIndex, FallbackColumn(role), MissingMessage(role), "")]
    ensures FieldUnset(ValidateRow(row, rowIndex, headers, catalog).parsedRow, role)
  {
    RoleErrorsOfRow(row, rowIndex, headers, catalog, role);
  }

  /** A year cell holding the decimal text of `n`, possibly followed by
      non-digit text, is accepted exactly when 1947 <= n <= 2030; otherwise
      the row gets the range diagnostic carrying the header and the cell. */
  lemma {:induction false} YearFromText(row: seq<string>, rowIndex: int, headers: seq<string>, catalog: seq<string>, n: int, suffix: string)
    requires FindRole(headers, Year).Some?
    requires FindRole(headers, Year).value < |row|
    requires row[FindRole(headers, Year).value] == ShowInt(n) + suffix
    requires |suffix| == 0 || !IsDigit(suffix[0])
    ensures var r := ValidateRow(row, rowIndex, headers, catalog);
      var i := FindRole(headers, Year).value;
      if MinYear <= n <= MaxYear then
        r.parsedRow.year == Some(n) && RoleErrors(r.errors, Year) == []
      else
        r.parsedRow.year == None
        && RoleErrors(r.errors, Year) == [ValidationError(rowIndex, headers[i], YearOutOfRange, row[i])]
  {
    YearCheckOfText(row, rowIndex, headers, n, suffix);
    RoleErrorsOfRow(row, rowIndex, headers, catalog, Year);
    ValidateRowFields(row, rowIndex, headers, catalog);
  }

  lemma {:induction false} YearCheckOfText(row: seq<string>, rowIndex: int, headers: seq<string>, n: int, suffix: string)
    requires FindRole(headers, Year).Some?
    requires FindRole(headers, Year).value < |row|
    requires row[FindRole(headers, Year).value] == ShowInt(n) + suffix
    requires |suffix| == 0 || !IsDigit(suffix[0])
    ensures var c := CheckYear(row, rowIndex, headers);
      var i := FindRole(headers, Year).value;
      c == if MinYear <= n <= MaxYear then Checked(Some(n), None)
           else Checked(None, Some(ValidationError(rowIndex, headers[i], YearOutOfRange, row[i])))
  {
    var i := FindRole(headers, Year).value;
    ParseIntShowInt(n, suffix);
    assert HasCell(row, i);
  }

  /** The parsed row holds the fields the three checks produced. */
  lemma {:induction false} ValidateRowFields(row: seq<string>, rowIndex: int, headers: seq<string>, catalog: seq<string>)
    ensures var p := ValidateRow(row, rowIndex, headers, catalog).parsedRow;
      && p.year == CheckYear(row, rowIndex, headers).field
      && p.state == CheckState(row, rowIndex, headers, catalog).field
      && p.value == CheckValue(row, rowIndex, headers).field
  {
  }

  /** A year cell with no digits after its optional sign is rejected as
      "Invalid year format", carrying the header and the cell. */
  lemma {:induction false} YearNotANumber(row: seq<string>, rowIndex: int, headers: seq<string>, catalog: seq<string>)
    requires FindRole(headers, Year).Some?
    requires HasCell(row, FindRole(headers, Year).value)
    requires !StartsInteger(row[FindRole(headers, Year).value])
    ensures var r := ValidateRow(row, rowIndex, headers, catalog);
      var i := FindRole(headers, Year).value;
      r.parsedRow.year == None
      && RoleErrors(r.errors, Year) == [ValidationError(rowIndex, headers[i], InvalidYear, row[i])]
  {
    RoleErrorsOfRow(row, rowIndex, headers, catalog, Year);
  }

  /** A present state cell is accepted exactly when its trimmed text matches
      a catalog entry ignoring case; the stored state is that text as
      written, not the catalog's spelling. Otherwise the state stays empty
      and the row gets "Invalid state/territory name" with the trimmed text. */
  lemma {:induction false} StateRule(row: seq<string>, rowIndex: int, headers: seq<string>, catalog: seq<string>)
    requires FindRole(headers, State).Some?
    requires HasCell(row, FindRole(headers, State).value)
    ensures var r := ValidateRow(row, rowIndex, headers, catalog);
      var i := FindRole(headers, State).value;
      if InCatalog(catalog, Trim(row[i])) then
        r.parsedRow.state == Trim(row[i]) && RoleErrors(r.errors, State) == []
      else
        r.parsedRow.state == ""
        && RoleErrors(r.errors, State) == [ValidationError(rowIndex, headers[i], InvalidState, Trim(row[i]))]
  {
    RoleErrorsOfRow(row, rowIndex, headers, catalog, State);
  }

  /** A present value cell is rejected as non-numeric exactly when it has no
      numeric prefix, and as negative exactly when it reads as a negative
      number; otherwise its number is stored. */
  lemma {:induction false} ValueRule(row: seq<string>, rowIndex: int, headers: seq<string>, catalog: seq<string>)
    requires FindRole(headers, Value).Some?
    requires HasCell(row, FindRole(headers, Value).value)
    ensures var r := ValidateRow(row, rowIndex, headers, catalog);
      var i := FindRole(headers, Value).value;
      if !StartsNumber(row[i]) then
        r.parsedRow.value == None
        && RoleErrors(r.errors, Value) == [ValidationError(rowIndex, headers[i], NonNumeric, row[i])]
      else if IsNegative(ParseFloat(row[i]).value) then
        r.parsedRow.value == None
        && RoleErrors(r.errors, Value) == [ValidationError(rowIndex, headers[i], NegativeValue, row[i])]
      else
        r.parsedRow.value == ParseFloat(row[i]) && RoleErrors(r.errors, Value) == []
  {
    RoleErrorsOfRow(row, rowIndex, headers, catalog, Value);
  }

  /** A value cell holding the decimal text of an integer `n` is stored as
      `n` when `n >= 0` and rejected as negative otherwise. */
  lemma {:induction false} ValueFromInt(row: seq<string>, rowIndex: int, headers: seq<string>, catalog: seq<string>, n: int)
    requires FindRole(headers, Value).Some?
    requires FindRole(headers, Value).value < |row|
    requires row[FindRole(headers, Value).value] == ShowInt(n)
    ensures var r := ValidateRow(row, rowIndex, headers, catalog);
      var i := FindRole(headers, Value).value;
      if n >= 0 then
        r.parsedRow.value == Some(Finite(n as real)) && RoleErrors(r.errors, Value) == []
      else
        r.parsedRow.value == None
        && RoleErrors(r.errors, Value) == [ValidationError(rowIndex, headers[i], NegativeValue, row[i])]
  {
    ValueCheckOfInt(row, rowIndex, headers, n);
    RoleErrorsOfRow(row, rowIndex, headers, catalog, Value);
    ValidateRowFields(row, rowIndex, headers, catalog);
  }

  lemma {:induction false} ValueCheckOfInt(row: seq<string>, rowIndex: int, headers: seq<string>, n: int)
    requires FindRole(headers, Value).Some?
    requires FindRole(headers, Value).value < |row|
    requires row[FindRole(headers, Value).value] == ShowInt(n)
    ensures var c := CheckValue(row, rowIndex, headers);
      var i := FindRole(headers, Value).value;
      c == if n >= 0 then Checked(Some(Finite(n as real)), None)
           else Checked(None, Some(ValidationError(rowIndex, headers[i], NegativeValue, row[i])))
  {
    var i := FindRole(headers, Value).value;
    ParseFloatShowInt(n);
    assert HasCell(row, i);
  }

  /** A value cell holding a decimal fraction is stored as the number it
      denotes unless a minus sign makes it negative, in which case it is
      rejected as negative: `"-5.5"` is refused, `"5.5"` is stored as 5.5. */
  lemma {:induction false} ValueFromDecimal(row: seq<string>, rowIndex: int, headers: seq<string>, catalog: seq<string>, negative: bool, m: nat, f: string)
    requires FindRole(headers, Value).Some?
    requires FindRole(headers, Value).value < |row|
    requires |f| >= 1 && AllDigits(f)
    requires row[FindRole(headers, Value).value] == DecimalText(negative, m, f)
    ensures var r := ValidateRow(row, rowIndex, headers, catalog);
      var i := FindRole(headers, Value).value;
      if negative && (m > 0 || DigitsValue(f) > 0) then
        r.parsedRow.value == None
        && RoleErrors(r.errors, Value) == [ValidationError(rowIndex, headers[i], NegativeValue, row[i])]
      else
        r.parsedRow.value == Some(Finite(DecimalValue(m, f))) && RoleErrors(r.errors, Value) == []
  {
    ParseFloatDecimal(negative, m, f);
    var x := DecimalValue(m, f);
    var v := Finite(if negative then -x else x);
    ValueCheckOfNumber(row, rowIndex, headers, v);
    RoleErrorsOfRow(row, rowIndex, headers, catalog, Value);
    ValidateRowFields(row, rowIndex, headers, catalog);
  }

  /** A present value cell that reads as `v` is stored as `v` unless `v` is
      negative. */
  lemma {:induction false} ValueCheckOfNumber(row: seq<string>, rowIndex: int, headers: seq<string>, v: Number)
    requires FindRole(headers, Value).Some?
    requires FindRole(headers, Value).value < |row|
    requires ParseFloat(row[FindRole(headers, Value).value]) == Some(v)
    ensures var c := CheckValue(row, rowIndex, headers);
      var i := FindRole(headers, Value).value;
      c == if IsNegative(v) then Checked(None, Some(ValidationError(rowIndex, headers[i], NegativeValue, row[i])))
           else Checked(Some(v), None)
  {
    var i := FindRole(headers, Value).value;
    assert HasCell(row, i) by {
      assert row[i] != "";
    }
  }

  /** When the header has a year column, a valid row carries a year in
      1947..2030, whatever the other columns are. */
  lemma {:induction false} ValidRowHasYear(row: seq<string>, rowIndex: int, headers: seq<string>, catalog: seq<string>)
    requires FindRole(headers, Year).Some?
    ensures var p := ValidateRow(row, rowIndex, headers, catalog).parsedRow;
      p.isValid ==> p.year.Some? && MinYear <= p.year.value <= MaxYear
  {
  }

  /** When the header has a value column, a valid row carries a value that
      is not negative, whatever the other columns are. */
  lemma {:induction false} ValidRowHasValue(row: seq<string>, rowIndex: int, headers: seq<string>, catalog: seq<string>)
    requires FindRole(headers, Value).Some?
    ensures var p := ValidateRow(row, rowIndex, headers, catalog).parsedRow;
      p.isValid ==> p.value.Some? && !IsNegative(p.value.value)
  {
  }

  /** When the header has year and value columns, a valid row carries both
      a year and a value: the only case in which reading them back as
      non-null is sound. */
  lemma {:induction false} ValidRowHasFields(row: seq<string>, rowIndex: int, headers: seq<string>, catalog: seq<string>)
    requires FindRole(headers, Year).Some? && FindRole(headers, Value).Some?
    ensures var p := ValidateRow(row, rowIndex, headers, catalog).parsedRow;
      p.isValid ==> p.year.Some? && p.value.Some?
  {
  }

  // ----- the application's catalog -----

  /** A header "State" serves the state role, in column 0. */
  lemma {:induction false} StateHeader()
    ensures FindRole(["State"], State) == Some(0)
  {
    assert ToLower("State") == "state";
    assert OccursAt("state", ToLower("State"), 0);
  }

  /** "kerala" matches the catalog's "Kerala" once both are lower-cased. */
  lemma {:induction false} KeralaListed()
    ensures InCatalog(Catalog.IndianStates, "kerala")
  {
    assert Catalog.IndianStates[11] == "Kerala";
    assert ToLower("Kerala") == "kerala" == ToLower("kerala");
  }

  /** No catalog entry lower-cases to "atlantis": those of its length start
      with another letter, and those starting with "a" are longer or
      shorter. */
  lemma {:induction false} AtlantisNotListed()
    ensures !InCatalog(Catalog.IndianStates, "Atlantis")
  {
    var catalog := Catalog.IndianStates;
    assert ToLower("Atlantis") == "atlantis";
    forall i | 0 <= i < |catalog|
      ensures ToLower(catalog[i]) != "atlantis"
    {
      if |catalog[i]| == 8 {
        assert LowerChar(catalog[i][0]) != 'a';
      }
    }
  }

  /** Against the application's catalog, a "State" column accepts "kerala",
      keeping it as written, and rejects "Atlantis" with "Invalid
      state/territory name". */
  lemma {:induction false} CatalogStates()
    ensures CheckState(["kerala"], 2, ["State"], Catalog.IndianStates) == Checked("kerala", None)
    ensures CheckState(["Atlantis"], 2, ["State"], Catalog.IndianStates)
            == Checked("", Some(ValidationError(2, "State", InvalidState, "Atlantis")))
  {
    StateHeader();
    KeralaListed();
    AtlantisNotListed();
    assert IsTrimmed("kerala") && IsTrimmed("Atlantis");
  }
}

=== FILE: wrappers.dfy ===
/** Optional values. `None` stands for what the parser's JavaScript reports as
    `null`, `undefined`, `NaN` or "not found" (`findIndex` returning -1). */
module Wrappers {

  datatype Option<+T> = None | Some(value: T)

  /** The option as a sequence of zero or one elements. */
  function ToSeq<T>(o: Option<T>): (s: seq<T>)
    ensures |s| <= 1
    ensures o.Some? <==> |s| == 1
    ensures o.Some? ==> s[0] == o.value
  {
    match o
    case None => []
    case Some(v) => [v]
  }
}
